=== FILE: README.md ===
# providerunicore, modelled in Dafny

This project models the back end of a compute-provider dashboard. The back
end keeps virtual machines and payouts in a Firestore collection through a
generic repository. It keeps provider accounts in an in-memory dictionary
and exposes registration and login through an auth controller. The model is
functional: every operation takes the state it reads and returns the state
it leaves, together with its result or the exception it throws.

The model has these modules:

- `Outcomes`: `Option`, which stands for a C# nullable, and `Result`, which stands for "returns or throws". It also holds the exception kinds the core raises and the `ex.Message` a `catch` block sees.
- `Text`: `char.IsWhiteSpace`, `string.IsNullOrWhiteSpace`, `ToLowerInvariant` and `EndsWith`, plus the ordinal string order by which the store orders document ids.
- `OrderedIds`: a collection's ids as a strictly ascending sequence, with insertion, removal and resuming after a cursor id.
- `Repository`: `FirestoreRepository<T>` over one collection.
  - The collection is a map from document id to document. A document maps field names to field values.
  - The collection keeps its ids in default order, which is ascending by id.
  - The module covers the collection-name rule, create (with and without an id rule), merge update, delete, listing, equality queries, first-match, cursor paging and conversion to typed records.
- `Models`: the `VirtualMachine`, `Payout` and `Provider` records with the defaults their initialisers give. It also holds the field tables that write the stored records as documents and read them back.
  - When a document is read back, an absent field keeps the property default.
  - A field of the wrong type makes the conversion fail.
  - Unknown fields are ignored.
- `MetricWindow`: the 20-sample sliding window behind the three metric histories.
- `VirtualMachineService`: VM operations over the repository. Documents are keyed by `VmId`.
- `VmService`: the in-memory demonstration list. Its running VMs' gauges drift randomly on every fetch.
- `PayoutService`: payout operations over the repository. Ids are generated by the store.
- `ProviderService`: the provider dictionary keyed by Firebase uid.
- `AuthController`: `Register`, `Login`, `Logout` and `GetCurrentProvider`. Each returns an HTTP status code and a body.

Anything the code obtains from outside is a parameter of the operation that uses it:

- the clock (`DateTime.UtcNow`);
- `Guid.NewGuid()`;
- the id the store generates for an auto-id insert;
- the `Random` draws;
- the identity provider's answer to sign-up or sign-in plus token verification;
- the caller's `user_id` claim.

Two behaviours of the code are made explicit in the model:

- **CreateVm.** `CreateAsync` with an id rule writes the whole document (`SetAsync` without merge). So `CreateVm` replaces a VM already stored under the same id. It does not refuse it.
- **CreatePayout.** `CreatePayoutAsync` sets the generated id on the returned payout only after the payout has been written. The stored document therefore keeps the empty `id` field, and reading it back gives a payout whose id is empty. `CreatePayout`'s contract states both halves.

The paging property is the centre of the repository part. `ReadPages` is a caller's loop: it passes each page's last document as the next cursor and stops at the first short page. `ReadPages` is proved to list exactly the documents after the starting cursor, each once, in default order. Starting from no cursor, it equals `GetAll`.

## Model

| member | source | states |
|---|---|---|
| Repository.Pluralize | providerunicore/Repositories/FirestoreRepository.cs:36-40 | the name is lower-cased and ends in "s": unchanged when the lower-cased name already ends in "s", otherwise with "s" appended |
| Repository.PluralizeIdempotent | providerunicore/Repositories/FirestoreRepository.cs:36-40 | pluralising a pluralised name changes nothing |
| Repository.PluralizeVirtualMachine | providerunicore/Repositories/FirestoreRepository.cs:28-30 | the VM repository's default collection is "virtualmachines" |
| Repository.PluralizeProvider | providerunicore/Repositories/FirestoreRepository.cs:28-30 | a Provider repository's default collection would be "providers" |
| Repository.PluralizeStatus | providerunicore/Repositories/FirestoreRepository.cs:39 | a type name already ending in "s" gets no second "s" |
| Repository.CollectionName | providerunicore/Repositories/FirestoreRepository.cs:27-30 | a name that is neither null nor white space is used as given; otherwise the pluralised type name, which ends in "s" |
| Repository.EmptyStoreValid | providerunicore/Repositories/FirestoreRepository.cs:46-56 | the empty collection satisfies the ordering invariant, lists nothing and finds no id |
| Repository.GetById | providerunicore/Repositories/FirestoreRepository.cs:46-50 | the stored document exactly when the id exists, null otherwise |
| Repository.Create | providerunicore/Repositories/FirestoreRepository.cs:58-70 | with an id rule: always succeeds at the derived id and replaces the old document. Without one: succeeds at the generated id iff that id is free, else AlreadyExists. On success only that id changes, it holds the serialised entity, and the order stays valid |
| Repository.Update | providerunicore/Repositories/FirestoreRepository.cs:72-76 | merge write: every written field takes the entity's value, every other stored field survives, and no other field appears; a missing document is created; other documents are unchanged |
| Repository.Delete | providerunicore/Repositories/FirestoreRepository.cs:78-81 | exactly the id is removed, the rest is untouched, and deleting a missing id changes nothing |
| Repository.UpdateCoveredIsIdentity | providerunicore/Repositories/FirestoreRepository.cs:72-76 | a merge write of fields the stored document already holds with the same values leaves the store unchanged |
| Repository.DeleteIdempotent | providerunicore/Repositories/FirestoreRepository.cs:78-81 | deleting twice is deleting once |
| Repository.GetAll | providerunicore/Repositories/FirestoreRepository.cs:52-56 | every stored document exactly once, in ascending id order, with its stored data |
| Repository.Where | providerunicore/Repositories/FirestoreRepository.cs:87-91 | exactly the documents whose field equals the value (both directions), in default order |
| Repository.FirstOrDefault | providerunicore/Repositories/FirestoreRepository.cs:93-100 | null iff no document satisfies the condition; otherwise a satisfying stored document with no satisfying document before it |
| Repository.ConvertAll | providerunicore/Repositories/FirestoreRepository.cs:55 | converting a result set succeeds iff every document converts; the records are then pointwise the conversions; a failure names a document of the set |
| Repository.GetByIdAs | providerunicore/Repositories/FirestoreRepository.cs:46-50 | null iff the id is absent; a conversion failure naming the id iff the stored document does not convert; otherwise the record the stored document converts to |
| Repository.ConvertedAreStored | providerunicore/Repositories/FirestoreRepository.cs:52-56 | each record converted from a listing is the conversion of the stored document at the same position |
| Repository.ConvertedIncludes | providerunicore/Repositories/FirestoreRepository.cs:52-56 | a converted listing holds the record of every stored id it lists |
| Repository.GetAllAs | providerunicore/Repositories/FirestoreRepository.cs:52-56 | succeeds iff every stored document converts, then with exactly one record per listed document, the i-th record being the conversion of the i-th document in id order, every record stored and every stored record present; a failure names a stored document |
| Repository.WhereAs | providerunicore/Repositories/FirestoreRepository.cs:87-91 | succeeds iff every matching document converts; then exactly one record per matching document, the i-th record being the conversion of the i-th match in id order; every record comes from a matching document and every matching document's record is present; a failure names a stored document |
| Repository.WhereAsExact | providerunicore/Repositories/FirestoreRepository.cs:87-91 | when every stored document converts, a record is returned iff some matching document converts to it |
| Repository.ReadableAfterWrite | providerunicore/Repositories/FirestoreRepository.cs:72-76 | writing one document that converts and carries the field, with no other change, keeps every document convertible and carrying it |
| Repository.GetPaged | providerunicore/Repositories/FirestoreRepository.cs:102-118 | at most pageSize documents, all after the cursor, in default order; the last document is null iff the page is empty and is otherwise the page's final item; every document after the cursor is on the page or, when the page is full, after all of it |
| Repository.ResumeAfterFullPage | providerunicore/Repositories/FirestoreRepository.cs:106-109 | resuming after the n-th remaining document leaves exactly the documents past it |
| Repository.ZeroPageSizeNeverAdvances | providerunicore/Repositories/FirestoreRepository.cs:102-118 | with page size 0 the page is empty with a null cursor, and the request that cursor leads to returns the same page |
| Repository.ReadPages | providerunicore/Repositories/IFirestoreRepository.cs:39-45 | chaining pages through the last-document cursor yields exactly the documents after the starting cursor, each once, in order |
| Repository.PagingVisitsEveryDocumentOnce | providerunicore/Repositories/IFirestoreRepository.cs:39-45 | paging from no cursor lists the same documents as GetAll |
| Models.NewProvider | providerunicore/Models/Provider.cs:4-9 | a new provider has empty strings and both timestamps at the construction clock reading |
| Models.DecodeVm | providerunicore/Models/VirtualMachine.cs:3-28 | a document converts iff every known field has its property's type; the status comes from the field or defaults to "Stopped" |
| Models.DecodeVmCovering | providerunicore/Models/VirtualMachine.cs:3-28 | any document carrying all of a VM's serialised fields reads back as that VM, whatever else it holds |
| Models.VmRoundTrip | providerunicore/Models/VirtualMachine.cs:3-28 | reading back a written VM gives the same VM |
| Models.DecodeEmptyVm | providerunicore/Models/VirtualMachine.cs:5-8 | an empty document reads as `new VirtualMachine()`: client "Unknown", status "Stopped" |
| Models.DecodePayout | providerunicore/Models/Payout.cs:3-10 | a document converts iff its known fields are typed right; the status comes from the field or defaults to "Completed" |
| Models.DecodePayoutCovering | providerunicore/Models/Payout.cs:3-10 | any document carrying a payout's fields reads back as that payout |
| Models.PayoutRoundTrip | providerunicore/Models/Payout.cs:3-10 | reading back a written payout gives the same payout |
| MetricWindow.Push | providerunicore/Services/VirtualMachineService.cs:53-54 | the sample ends the history; the length grows by one until it would pass 20 and stays the same after that; the result is the newest suffix of old-then-new |
| MetricWindow.PushWithinCapacity | providerunicore/Services/VirtualMachineService.cs:52-60 | a history of at most 20 stays at most 20 and is the last 20 of old-then-new |
| MetricWindow.PushLockstep | providerunicore/Services/VirtualMachineService.cs:53-60 | histories of equal length stay of equal length |
| MetricWindow.PushAllKeepsMostRecent | providerunicore/Services/VirtualMachineService.cs:52-60 | after any run of samples the history is the most recent 20 of old-then-new, oldest first |
| MetricWindow.FromEmpty | providerunicore/Services/VirtualMachineService.cs:52-60 | from empty, after k samples the history holds the last min(k, 20) of them |
| MetricWindow.OverlongKeepsLength | providerunicore/Services/VirtualMachineService.cs:53-54 | a history already longer than 20 never shrinks |
| VirtualMachineService.DefaultVmStartsWithinWindow | providerunicore/Models/VirtualMachine.cs:5-27 | a fresh VM has empty, equal-length histories and a blank id |
| VirtualMachineService.GetVmById | providerunicore/Services/VirtualMachineService.cs:15-18 | null iff the id is absent; otherwise the stored VM, or a conversion failure naming the id iff the document does not convert |
| VirtualMachineService.GetAllVms | providerunicore/Services/VirtualMachineService.cs:20-23 | succeeds iff every stored document converts, otherwise fails with a conversion failure naming a stored document; with well-formed documents it succeeds with one VM per document, the i-th read from the i-th document in id order; every VM returned is stored and every stored VM is returned |
| VirtualMachineService.GetVmsByStatus | providerunicore/Services/VirtualMachineService.cs:25-28 | succeeds iff every document whose status field matches converts (documents that do not match are never read), otherwise fails with a conversion failure naming a stored document; one VM per document whose status field matches, the i-th read from the i-th such document in id order; every VM returned is stored with that status, and every stored VM whose status field matches is returned |
| VirtualMachineService.StatusQueryExact | providerunicore/Services/VirtualMachineService.cs:25-28 | over well-formed documents a VM is returned iff it is stored with that status |
| VirtualMachineService.CreateVm | providerunicore/Services/VirtualMachineService.cs:30-38 | a blank VmId is replaced by the generated id and any other is kept; nothing else of the VM changes; the VM is then readable by its id; only that id changes; the store stays well formed |
| VirtualMachineService.RecordSample | providerunicore/Services/VirtualMachineService.cs:47-60 | the gauges become the readings and each history is pushed through the window; every other field is unchanged |
| VirtualMachineService.RecordSampleKeepsWindows | providerunicore/Services/VirtualMachineService.cs:52-60 | histories within the window and in lockstep stay so |
| VirtualMachineService.UpdateVmMetrics | providerunicore/Services/VirtualMachineService.cs:40-64 | fails with "VM {id} not found" when absent; succeeds iff the stored VM converts; stores and returns the sampled VM under the same id; other documents unchanged |
| VirtualMachineService.UpdateVmMetricsFrame | providerunicore/Services/VirtualMachineService.cs:40-64 | a metrics update leaves id, name, client, status, uptime, specs and costs as stored; the gauges are the readings, each history ends with its reading, and the window invariant is kept |
| VirtualMachineService.DeleteVm | providerunicore/Services/VirtualMachineService.cs:66-69 | afterwards the VM is not found; only its id is removed; a missing id is a no-op |
| VmService.Clamp | providerunicore/Services/VmService.cs:61-63 | the result lies in the range, equals the input inside it, and equals the nearer bound outside it |
| VmService.Refresh | providerunicore/Services/VmService.cs:59-72 | a VM that is not running is unchanged; a running VM's gauges end in 0..100, move exactly by the draw when that stays in range, read 0 when gauge plus draw falls below 0 and 100 when it passes 100, and are pushed onto the histories; nothing else changes |
| VmService.RefreshMovesLittle | providerunicore/Services/VmService.cs:58-63 | with draws from `Next(-10, 10)` and `Next(-5, 5)`, a gauge moves by -10..9, or by -5..4 for RAM |
| VmService.RefreshKeepsHealthy | providerunicore/Services/VmService.cs:61-72 | gauges in range and histories within the window stay so |
| VmService.SeedFacts | providerunicore/Services/VmService.cs:11-52 | the list starts with three VMs with distinct ids, two running and one stopped, all healthy and with empty histories |
| VmService.GetMyVms | providerunicore/Services/VmService.cs:55-76 | the list keeps its length and order; stopped VMs are unchanged; running VMs get in-range gauges and pushed histories |
| VmService.FetchesKeepInvariant | providerunicore/Services/VmService.cs:55-76 | over any number of fetches every VM stays healthy and keeps its identity, specs and costs, and a stopped VM never changes |
| VmService.FetchesFillWindow | providerunicore/Services/VmService.cs:65-72 | a running VM's history grows by one per fetch until it holds 20 samples |
| PayoutService.GetPayoutById | providerunicore/Services/PayoutService.cs:15-18 | null iff the id is absent; otherwise the stored payout, or a conversion failure naming the id iff the document does not convert |
| PayoutService.GetAllPayouts | providerunicore/Services/PayoutService.cs:20-23 | succeeds iff every stored document converts, otherwise fails with a conversion failure naming a stored document; with well-formed documents it succeeds with one payout per document, the i-th read from the i-th document in id order; returned payouts are stored and stored payouts are returned |
| PayoutService.GetPayoutsByStatus | providerunicore/Services/PayoutService.cs:25-28 | succeeds iff every document whose status field matches converts (documents that do not match are never read), otherwise fails with a conversion failure naming a stored document; one payout per document whose status field matches, the i-th read from the i-th such document in id order, so two identical payouts stored twice come back twice; every payout returned is stored with that status, and every stored payout whose status field matches is returned |
| PayoutService.StatusQueryExact | providerunicore/Services/PayoutService.cs:25-28 | over well-formed documents a payout is returned iff it is stored with that status |
| PayoutService.CreatePayout | providerunicore/Services/PayoutService.cs:30-44 | succeeds iff the generated id is free; returns a pending payout with the amount, method, clock reading and new id; the stored document reads back with an empty id; no other document changes |
| PayoutService.UpdatePayoutStatus | providerunicore/Services/PayoutService.cs:46-56 | fails with "Payout {id} not found" when absent; otherwise only the status changes, the payout is stored back under the same id, and other documents are unchanged |
| PayoutService.UpdatedPayoutIsListedUnderNewStatus | providerunicore/Services/PayoutService.cs:46-56 | after a status update the payout is listed by the query for its new status and by the query for no other status |
| PayoutService.UpdatePayoutStatusIdempotent | providerunicore/Services/PayoutService.cs:46-56 | setting the same status again returns the same payout and leaves the store exactly as the first update left it |
| ProviderService.GetByFirebaseUid | providerunicore/Services/ProviderService.cs:15-19 | the provider under the uid exactly when the uid is present |
| ProviderService.CreateProvider | providerunicore/Services/ProviderService.cs:22-34 | the new provider has the given id, name, email and uid, CreatedAt set explicitly and LastLogin from its initialiser; it is filed under its uid; other providers are unchanged; keys stay matched to uids |
| ProviderService.UpdateLastLogin | providerunicore/Services/ProviderService.cs:37-45 | fails with "Provider not found" iff the uid is absent; otherwise only that provider's LastLogin changes, to the clock reading |
| ProviderService.UpdateLastLoginTwice | providerunicore/Services/ProviderService.cs:37-45 | two logins leave the provider as the second alone would |
| ProviderService.WritesOnlyGrow | providerunicore/Services/ProviderService.cs:22-45 | no write ever removes a provider |
| AuthController.Register | providerunicore/Controllers/AuthController.cs:21-50 | 201 iff the name is not blank, sign-up succeeds and the uid is new. A blank name gives 400 "Name is required.", a sign-up failure gives 400 with its message, and a known uid gives 409. Only 201 changes the store, and it never changes an existing provider |
| AuthController.BlankNameIgnoresIdentity | providerunicore/Controllers/AuthController.cs:23-24 | a blank name is refused whatever the identity provider would answer |
| AuthController.Login | providerunicore/Controllers/AuthController.cs:54-80 | 200 iff sign-in succeeds and the provider exists; 400 iff sign-in fails, so the catch never sees a missing provider; 404 with "Provider not found. Please register first." otherwise; on 200 only LastLogin changes |
| AuthController.Logout | providerunicore/Controllers/AuthController.cs:85-93 | 401 iff there is no uid claim, otherwise 200 with the confirmation message |
| AuthController.GetCurrentProvider | providerunicore/Controllers/AuthController.cs:98-105 | 401 without a claim, 200 with the caller's provider iff it exists, 404 otherwise |
| AuthController.RegisterThenLogin | providerunicore/Controllers/AuthController.cs:21-80 | after registering, logging in with the same uid answers 200 with the registered name and email and the login time |
| AuthController.RegisterTwiceConflicts | providerunicore/Controllers/AuthController.cs:32-34 | registering an already registered account answers 409 and changes nothing |
| AuthController.RegisterThenMe | providerunicore/Controllers/AuthController.cs:98-105 | after registering, the caller's own record is the provider just created |

## Left out

- Transactions (`ExecuteInTransactionAsync`) and `CreateQuery` are not modelled. They hand the raw Firestore API to callers and carry no logic of their own.
- `FirstOrDefault`: the caller's query modifier is modelled as a condition on documents that the result must satisfy. Arbitrary modifiers such as `OrderBy` or `Limit` are not modelled.
- Firestore's own serialisation attributes, server timestamps and nested values are not modelled. A document is a flat map from field name to value, and each entity has an explicit field table.
- The model assumes that the stored field names are the lower-camel property names, so that `WhereAsync("status", …)` finds the field the entity's `Status` is written to. The source sets no such mapping: `VirtualMachine` and `Payout` carry no `[FirestoreData]` or `[FirestoreProperty]` attributes (Models/VirtualMachine.cs:3, Models/Payout.cs:3). How the Firestore serialiser names or accepts their fields is outside this model.
- Document-id validity is not modelled. `Document(id)` rejects an empty id and reads `/` as a path separator (FirestoreRepository.cs:48, 64, 75, 80). The model accepts any string as an id. So `GetVmById(EmptyStore, "")` is `Success(None)` here, where the source throws, and `CreateVm` with the id `a/b` succeeds here.
- Lazy conversion is not modelled. `Select(doc => doc.ConvertTo<T>())` (FirestoreRepository.cs:55, 90, 112) is deferred, so a document that does not convert raises its exception only when the caller enumerates the result. `ConvertAll` and the typed reads report the failure at call time.
- Cross-type number equality is not modelled. Firestore's `WhereEqualTo` treats an integer and a double of the same value as equal. The model's `Value` equality keeps `Int(1)` and `Num(1.0)` apart. The core queries only string fields, where the two agree.
- `decimal` and `double` values are both exact reals. The decimal-to-double cast that feeds the histories is therefore the identity, and rounding and overflow are not modelled.
- `TimeSpan` and `DateTime` are integer tick counts.
- Text.ToLower: lower-cases the ASCII letters only, because `ToLowerInvariant`'s full Unicode case mapping is not modelled.
- Null strings are not modelled. Every string parameter and property is a non-null string, except the optional collection name, which is an `Option`.
- Repository.GetPaged: takes a `nat` page size, because a negative `Limit` makes Firestore throw and that path is not modelled.
- Repository.ReadPages: requires a positive page size. This is a property of the source's paging protocol, not a gap in the model: with page size 0 every page is empty, counts as full and has a null cursor, so a caller's loop restarts from the beginning forever (`ZeroPageSizeNeverAdvances`).
- Random draws, `Guid.NewGuid()`, `DateTime.UtcNow` and the store's generated ids are parameters, not sources.
- VmService.GetMyVms: takes one draw triple per VM, and a stopped VM's triple is ignored. The order in which `Random` is consumed is not modelled.
- `FirebaseAuthService` is not part of this model. Sign-up, sign-in and token verification are one identity answer per call. Token revocation in `Logout` is not modelled.
- ASP.NET concerns are not modelled: routing, `[Authorize]`, model binding, `CreatedAtAction`'s location header, and dependency-injection wiring (`Program.cs`).
- Async, concurrency and the mutable in-place updates of the C# objects are not modelled. Each call is an atomic step on an immutable state.
- The `IVmService` and `IPayoutService` interface signatures are not modelled. `IPayoutService` declares `CreatePayoutAsync` with a `double` amount, while the class takes a `decimal`. Both are reals here.

=== FILE: auth_controller.dfy ===
/** `AuthController`: registration, login, logout and "who am I" over the
    provider service.

    The identity provider is an oracle: signing up or in followed by token
    verification either yields the account's uid or fails with a message
    (the exception the controller catches). The caller's `user_id` claim is
    a parameter of the two authorised endpoints. Responses are an HTTP
    status code and a body. */
module AuthController {
  import opened Outcomes
  import opened Text
  import opened Models
  import opened ProviderService

  datatype Identity = Verified(uid: string) | AuthFailed(message: string)

  datatype RegisterRequest = RegisterRequest(name: string, email: string, password: string)

  datatype LoginRequest = LoginRequest(email: string, password: string)

  datatype AuthResponse = AuthResponse(firebaseUid: string, name: string, email: string, lastLogin: Time)

  datatype Body =
    | Auth(auth: AuthResponse)
    | ProviderBody(provider: Provider)
    | ErrorBody(error: string)
    | MessageBody(message: string)
    | NoBody

  datatype Response = Response(status: nat, body: Body)

  const StatusOk: nat := 200
  const StatusCreated: nat := 201
  const StatusBadRequest: nat := 400
  const StatusUnauthorized: nat := 401
  const StatusNotFound: nat := 404
  const StatusConflict: nat := 409

  const NameRequired := "Name is required."
  const AlreadyRegistered := "A provider with this account already exists."
  const RegisterFirst := "Provider not found. Please register first."
  const LoggedOut := "Logged out successfully."

  /** The response body describing provider `p` signed in as `uid`. */
  function Describe(uid: string, p: Provider): AuthResponse
  {
    AuthResponse(uid, p.name, p.email, p.lastLogin)
  }

  /** `Register`. `signUp` is the identity provider's answer for the new
      account; `newId`, `initNow` and `now` are what creating the provider
      draws from the GUID source and the clock. */
  function Register(m: Providers, req: RegisterRequest, signUp: Identity,
                    newId: string, initNow: Time, now: Time): (r: (Providers, Response))
    ensures r.1.status in {StatusCreated, StatusBadRequest, StatusConflict}
    ensures r.1.status == StatusCreated <==> !IsBlank(req.name) && signUp.Verified? && signUp.uid !in m
    ensures r.1.status != StatusCreated ==> r.0 == m
    ensures IsBlank(req.name) ==> r.1 == Response(StatusBadRequest, ErrorBody(NameRequired))
    ensures !IsBlank(req.name) && signUp.AuthFailed? ==> r.1 == Response(StatusBadRequest, ErrorBody(signUp.message))
    ensures !IsBlank(req.name) && signUp.Verified? && signUp.uid in m ==>
      r.1 == Response(StatusConflict, ErrorBody(AlreadyRegistered))
    ensures r.1.status == StatusCreated ==>
      var uid := signUp.uid;
      && r.0.Keys == m.Keys + {uid}
      && uid in r.0 && r.0[uid].name == req.name && r.0[uid].email == req.email
      && r.0[uid].firebaseUid == uid && r.0[uid].createdAt == now
      && r.1.body == Auth(Describe(uid, r.0[uid]))
    ensures forall uid :: uid in m ==> uid in r.0 && r.0[uid] == m[uid]
    ensures WellKeyed(m) ==> WellKeyed(r.0)
  {
    if IsBlank(req.name) then
      (m, Response(StatusBadRequest, ErrorBody(NameRequired)))
    else match signUp
      case AuthFailed(message) => (m, Response(StatusBadRequest, ErrorBody(message)))
      case Verified(uid) =>
        match GetByFirebaseUid(m, uid)
        case Some(_) => (m, Response(StatusConflict, ErrorBody(AlreadyRegistered)))
        case None =>
          var (m', provider) := CreateProvider(m, req.name, req.email, uid, newId, initNow, now);
          (m', Response(StatusCreated, Auth(Describe(uid, provider))))
  }

  /** A blank name is refused before the identity provider is consulted: the
      outcome does not depend on its answer. */
  lemma BlankNameIgnoresIdentity(m: Providers, req: RegisterRequest, a: Identity, b: Identity,
                                 newId: string, initNow: Time, now: Time)
    requires IsBlank(req.name)
    ensures Register(m, req, a, newId, initNow, now) == Register(m, req, b, newId, initNow, now)
  {
  }

  /** `Login` at clock reading `now`; `signIn` is the identity provider's
      answer for the credentials. */
  function Login(m: Providers, req: LoginRequest, signIn: Identity, now: Time): (r: (Providers, Response))
    ensures r.1.status in {StatusOk, StatusBadRequest, StatusNotFound}
    ensures r.1.status == StatusOk <==> signIn.Verified? && signIn.uid in m
    ensures r.1.status == StatusBadRequest <==> signIn.AuthFailed?
    ensures signIn.AuthFailed? ==> r == (m, Response(StatusBadRequest, ErrorBody(signIn.message)))
    ensures signIn.Verified? && signIn.uid !in m ==> r == (m, Response(StatusNotFound, ErrorBody(RegisterFirst)))
    ensures r.1.status == StatusOk ==>
      var uid := signIn.uid;
      && r.0.Keys == m.Keys
      && r.0[uid] == m[uid].(lastLogin := now)
      && (forall other :: other in m && other != uid ==> r.0[other] == m[other])
      && r.1.body == Auth(AuthResponse(uid, m[uid].name, m[uid].email, now))
    ensures WellKeyed(m) ==> WellKeyed(r.0)
  {
    match signIn
    case AuthFailed(message) => (m, Response(StatusBadRequest, ErrorBody(message)))
    case Verified(uid) =>
      match GetByFirebaseUid(m, uid)
      case None => (m, Response(StatusNotFound, ErrorBody(RegisterFirst)))
      case Some(_) =>
        match UpdateLastLogin(m, uid, now)
        case Failure(e) => (m, Response(StatusBadRequest, ErrorBody(Message(e))))
        case Success((m', provider)) => (m', Response(StatusOk, Auth(Describe(uid, provider))))
  }

  /** `Logout`: with no `user_id` claim the caller is unauthorised; otherwise
      the confirmation message. */
  function Logout(claim: Option<string>): (r: Response)
    ensures r.status == StatusUnauthorized <==> claim.None?
    ensures claim.Some? ==> r == Response(StatusOk, MessageBody(LoggedOut))
  {
    match claim
    case None => Response(StatusUnauthorized, NoBody)
    case Some(_) => Response(StatusOk, MessageBody(LoggedOut))
  }

  /** `GetCurrentProvider`: the caller's own provider record. */
  function GetCurrentProvider(m: Providers, claim: Option<string>): (r: Response)
    ensures r.status == StatusUnauthorized <==> claim.None?
    ensures r.status == StatusOk <==> claim.Some? && claim.value in m
    ensures r.status == StatusOk ==> r.body == ProviderBody(m[claim.value])
    ensures claim.Some? && claim.value !in m ==> r == Response(StatusNotFound, NoBody)
  {
    match claim
    case None => Response(StatusUnauthorized, NoBody)
    case Some(uid) =>
      match GetByFirebaseUid(m, uid)
      case None => Response(StatusNotFound, NoBody)
      case Some(provider) => Response(StatusOk, ProviderBody(provider))
  }

  /** Once registered, an account can sign in: a successful registration
      followed by a login under the same uid answers 200 with the
      registered name and email. */
  lemma RegisterThenLogin(m: Providers, req: RegisterRequest, uid: string, login: LoginRequest,
                          newId: string, initNow: Time, now: Time, later: Time)
    requires Register(m, req, Verified(uid), newId, initNow, now).1.status == StatusCreated
    ensures var m' := Register(m, req, Verified(uid), newId, initNow, now).0;
      Login(m', login, Verified(uid), later).1 ==
        Response(StatusOk, Auth(AuthResponse(uid, req.name, req.email, later)))
  {
  }

  /** A second registration for an account already registered is refused
      with 409 and changes nothing. */
  lemma RegisterTwiceConflicts(m: Providers, req: RegisterRequest, req2: RegisterRequest, uid: string,
                               newId: string, initNow: Time, now: Time,
                               newId2: string, initNow2: Time, now2: Time)
    requires Register(m, req, Verified(uid), newId, initNow, now).1.status == StatusCreated
    requires !IsBlank(req2.name)
    ensures var m' := Register(m, req, Verified(uid), newId, initNow, now).0;
      Register(m', req2, Verified(uid), newId2, initNow2, now2) ==
        (m', Response(StatusConflict, ErrorBody(AlreadyRegistered)))
  {
  }

  /** After registering, "who am I" under the new uid returns the record. */
  lemma RegisterThenMe(m: Providers, req: RegisterRequest, uid: string, newId: string, initNow: Time, now: Time)
    requires Register(m, req, Verified(uid), newId, initNow, now).1.status == StatusCreated
    ensures var m' := Register(m, req, Verified(uid), newId, initNow, now).0;
      GetCurrentProvider(m', Some(uid)) ==
        Response(StatusOk, ProviderBody(Provider(newId, req.name, req.email, uid, now, initNow)))
  {
  }
}

=== FILE: metric_window.dfy ===
/** The bounded metric history: a sliding window of the most recent samples,
    oldest first. Each new sample is appended and, when that takes the window
    past its capacity, exactly one sample is dropped from the front. */
module MetricWindow {
  import opened Numbers

  /** Number of samples a history keeps. */
  const Capacity: nat := 20

  /** The last `n` elements of `s` (all of `s` when it is shorter). */
  function LastN(s: seq<real>, n: nat): (r: seq<real>)
    ensures |r| == Min(n, |s|)
  {
    s[|s| - Min(n, |s|)..]
  }

  /** Append `x`; if the history is now longer than `Capacity`, drop its
      oldest sample. */
  function Push(h: seq<real>, x: real): (r: seq<real>)
    ensures |r| > 0 && r[|r| - 1] == x
    ensures |h| + 1 > Capacity <==> |r| == |h|
    ensures |h| + 1 <= Capacity <==> |r| == |h| + 1
    ensures r == (h + [x])[|h| + 1 - |r|..]
  {
    var appended := h + [x];
    if |appended| > Capacity then appended[1..] else appended
  }

  /** A window within capacity stays within it and grows by one until full. */
  lemma PushWithinCapacity(h: seq<real>, x: real)
    requires |h| <= Capacity
    ensures |Push(h, x)| <= Capacity
    ensures |Push(h, x)| == Min(|h| + 1, Capacity)
    ensures Push(h, x) == LastN(h + [x], Capacity)
  {
  }

  /** Histories of equal length stay of equal length: the three channels move
      in lockstep. */
  lemma PushLockstep(a: seq<real>, x: real, b: seq<real>, y: real)
    requires |a| == |b|
    ensures |Push(a, x)| == |Push(b, y)|
  {
  }

  /** The window after feeding it the samples `xs` one by one. */
  function PushAll(h: seq<real>, xs: seq<real>): seq<real>
    decreases |xs|
  {
    if |xs| == 0 then h else PushAll(Push(h, xs[0]), xs[1..])
  }

  lemma LastNOfLastN(a: seq<real>, b: seq<real>, n: nat)
    ensures LastN(LastN(a, n) + b, n) == LastN(a + b, n)
  {
    var a' := LastN(a, n);
    var left := LastN(a' + b, n);
    var right := LastN(a + b, n);
    assert |left| == |right|;
    forall i | 0 <= i < |left| ensures left[i] == right[i] {
      var k := |a' + b| - |left| + i;
      var k' := |a + b| - |right| + i;
      assert left[i] == (a' + b)[k];
      assert right[i] == (a + b)[k'];
      if k < |a'| {
        assert (a' + b)[k] == a'[k] == a[|a| - |a'| + k];
        assert k' == |a| - |a'| + k;
      } else {
        assert (a' + b)[k] == b[k - |a'|];
        assert k' - |a| == k - |a'|;
      }
    }
  }

  lemma SplitFirst(h: seq<real>, xs: seq<real>)
    requires |xs| > 0
    ensures h + [xs[0]] + xs[1..] == h + xs
  {
    assert xs == [xs[0]] + xs[1..];
  }

  /** From any window within capacity, after the samples `xs` the window holds
      the most recent `Capacity` values of old-then-new, oldest first. */
  lemma {:induction false} PushAllKeepsMostRecent(h: seq<real>, xs: seq<real>)
    requires |h| <= Capacity
    ensures PushAll(h, xs) == LastN(h + xs, Capacity)
    decreases |xs|
  {
    if |xs| == 0 {
      assert h + xs == h;
    } else {
      var h' := Push(h, xs[0]);
      PushWithinCapacity(h, xs[0]);
      assert PushAll(h, xs) == PushAll(h', xs[1..]);
      PushAllKeepsMostRecent(h', xs[1..]);
      LastNOfLastN(h + [xs[0]], xs[1..], Capacity);
      SplitFirst(h, xs);
    }
  }

  /** Starting from an empty history, after k samples the history is the last
      min(k, 20) of them, oldest first. */
  lemma FromEmpty(xs: seq<real>)
    ensures PushAll([], xs) == xs[|xs| - Min(|xs|, Capacity)..]
    ensures |PushAll([], xs)| == Min(|xs|, Capacity)
  {
    PushAllKeepsMostRecent([], xs);
    var e: seq<real> := [];
    assert e + xs == xs;
    assert PushAll([], xs) == LastN(xs, Capacity);
    assert Min(|xs|, Capacity) == Min(Capacity, |xs|);
  }

  /** A history that was already longer than the capacity keeps its length. */
  lemma {:induction false} OverlongKeepsLength(h: seq<real>, xs: seq<real>)
    requires |h| > Capacity
    ensures |PushAll(h, xs)| == |h|
    decreases |xs|
  {
    if |xs| > 0 {
      OverlongKeepsLength(Push(h, xs[0]), xs[1..]);
    }
  }
}

=== FILE: models.dfy ===
/** The three entity records (`VirtualMachine`, `Payout`, `Provider`) with the
    defaults their property initialisers give, and the field tables that
    serialise the two stored ones to documents and back.

    Reading a document back follows the store's conversion rule: a field that
    is absent keeps the property's default, a field of the wrong type makes the
    conversion fail, and fields the record does not know are ignored. */
module Models {
  import opened Outcomes
  import opened Repository
  import MetricWindow

  /** A `DateTime` as a tick count; a `TimeSpan` likewise. */
  type Time = int

  datatype VirtualMachine = VirtualMachine(
    vmId: string,
    name: string,
    client: string,
    status: string,
    uptime: int,
    // hardware specs
    cpuCores: int,
    ramGB: int,
    // financials
    costPerHour: real,
    currentSessionCost: real,
    // live gauges
    currentCpuUsage: real,
    currentGpuUsage: real,
    currentRamUsage: real,
    // sample histories, oldest first
    cpuHistory: seq<real>,
    gpuHistory: seq<real>,
    ramHistory: seq<real>)

  /** The three histories never exceed the window and move in lockstep. */
  predicate WindowsOk(vm: VirtualMachine)
  {
    && |vm.cpuHistory| <= MetricWindow.Capacity
    && |vm.cpuHistory| == |vm.gpuHistory| == |vm.ramHistory|
  }

  /** `new VirtualMachine()`: every property at its initialiser's value. */
  const DefaultVm := VirtualMachine("", "", "Unknown", "Stopped", 0, 0, 0, 0.0, 0.0, 0.0, 0.0, 0.0, [], [], [])

  datatype Payout = Payout(id: string, date: Time, amount: real, payMethod: string, status: string)

  /** `new Payout()`: `Date` is `default(DateTime)`, tick 0. */
  const DefaultPayout := Payout("", 0, 0.0, "", "Completed")

  datatype Provider = Provider(
    id: string,
    name: string,
    email: string,
    firebaseUid: string,
    createdAt: Time,
    lastLogin: Time)

  /** `new Provider()` at clock reading `now`: both timestamps initialise to it. */
  function NewProvider(now: Time): (r: Provider)
    ensures r.createdAt == now && r.lastLogin == now
    ensures r.id == "" && r.name == "" && r.email == "" && r.firebaseUid == ""
  {
    Provider("", "", "", "", now, now)
  }

  // ---------------------------------------------------------------------------
  // Reading single fields: absent -> the default, present -> its value if it
  // has the property's type (the conversion fails otherwise)
  // ---------------------------------------------------------------------------

  predicate StrField(d: Doc, f: string) { f !in d || d[f].Str? }
  predicate IntField(d: Doc, f: string) { f !in d || d[f].Int? }
  predicate NumField(d: Doc, f: string) { f !in d || d[f].Num? }
  predicate StampField(d: Doc, f: string) { f !in d || d[f].Stamp? }
  predicate NumsField(d: Doc, f: string) { f !in d || d[f].Nums? }

  function StrOr(d: Doc, f: string, default: string): string
  {
    if f in d && d[f].Str? then d[f].s else default
  }

  function IntOr(d: Doc, f: string, default: int): int
  {
    if f in d && d[f].Int? then d[f].i else default
  }

  function NumOr(d: Doc, f: string, default: real): real
  {
    if f in d && d[f].Num? then d[f].r else default
  }

  function StampOr(d: Doc, f: string, default: Time): Time
  {
    if f in d && d[f].Stamp? then d[f].ticks else default
  }

  function NumsOr(d: Doc, f: string, default: seq<real>): seq<real>
  {
    if f in d && d[f].Nums? then d[f].xs else default
  }

  /** `d` holds every field of `e` with `e`'s value (and possibly more). */
  predicate Covers(d: Doc, e: Doc)
  {
    forall f :: f in e ==> f in d && d[f] == e[f]
  }

  // ---------------------------------------------------------------------------
  // VirtualMachine <-> document
  // ---------------------------------------------------------------------------

  function EncodeVm(vm: VirtualMachine): Doc
  {
    map[
      "vmId" := Str(vm.vmId), "name" := Str(vm.name), "client" := Str(vm.client),
      "status" := Str(vm.status), "uptime" := Int(vm.uptime),
      "cpuCores" := Int(vm.cpuCores), "ramGB" := Int(vm.ramGB),
      "costPerHour" := Num(vm.costPerHour), "currentSessionCost" := Num(vm.currentSessionCost),
      "currentCpuUsage" := Num(vm.currentCpuUsage), "currentGpuUsage" := Num(vm.currentGpuUsage),
      "currentRamUsage" := Num(vm.currentRamUsage),
      "cpuHistory" := Nums(vm.cpuHistory), "gpuHistory" := Nums(vm.gpuHistory),
      "ramHistory" := Nums(vm.ramHistory)]
  }

  /** Every field the VM record knows has the right type (or is absent). */
  predicate VmConvertible(d: Doc)
  {
    && StrField(d, "vmId") && StrField(d, "name") && StrField(d, "client") && StrField(d, "status")
    && IntField(d, "uptime") && IntField(d, "cpuCores") && IntField(d, "ramGB")
    && NumField(d, "costPerHour") && NumField(d, "currentSessionCost")
    && NumField(d, "currentCpuUsage") && NumField(d, "currentGpuUsage") && NumField(d, "currentRamUsage")
    && NumsField(d, "cpuHistory") && NumsField(d, "gpuHistory") && NumsField(d, "ramHistory")
  }

  function DecodeVm(d: Doc): (r: Option<VirtualMachine>)
    ensures r.Some? <==> VmConvertible(d)
    ensures r.Some? && "status" in d ==> d["status"] == Str(r.value.status)
    ensures r.Some? && "status" !in d ==> r.value.status == DefaultVm.status
  {
    var dv := DefaultVm;
    if !VmConvertible(d) then None
    else Some(VirtualMachine(
      StrOr(d, "vmId", dv.vmId), StrOr(d, "name", dv.name), StrOr(d, "client", dv.client),
      StrOr(d, "status", dv.status), IntOr(d, "uptime", dv.uptime),
      IntOr(d, "cpuCores", dv.cpuCores), IntOr(d, "ramGB", dv.ramGB),
      NumOr(d, "costPerHour", dv.costPerHour), NumOr(d, "currentSessionCost", dv.currentSessionCost),
      NumOr(d, "currentCpuUsage", dv.currentCpuUsage), NumOr(d, "currentGpuUsage", dv.currentGpuUsage),
      NumOr(d, "currentRamUsage", dv.currentRamUsage),
      NumsOr(d, "cpuHistory", dv.cpuHistory), NumsOr(d, "gpuHistory", dv.gpuHistory),
      NumsOr(d, "ramHistory", dv.ramHistory)))
  }

  /** Any document holding all of a VM's serialised fields reads back as that
      VM, whatever other fields it carries: so a whole write and a merge write
      of a VM both read back as the VM written. */
  lemma DecodeVmCovering(d: Doc, vm: VirtualMachine)
    requires Covers(d, EncodeVm(vm))
    ensures DecodeVm(d) == Some(vm)
  {
    CoveredVmText(d, vm);
    CoveredVmCounts(d, vm);
    CoveredVmCosts(d, vm);
    CoveredVmHistories(d, vm);
  }

  lemma CoveredVmText(d: Doc, vm: VirtualMachine)
    requires Covers(d, EncodeVm(vm))
    ensures StrField(d, "vmId") && StrField(d, "name") && StrField(d, "client") && StrField(d, "status")
    ensures StrOr(d, "vmId", "") == vm.vmId && StrOr(d, "name", "") == vm.name
    ensures StrOr(d, "client", "Unknown") == vm.client && StrOr(d, "status", "Stopped") == vm.status
  {
    var e := EncodeVm(vm);
    assert e["vmId"] == Str(vm.vmId) && e["name"] == Str(vm.name);
    assert e["client"] == Str(vm.client) && e["status"] == Str(vm.status);
  }

  lemma CoveredVmCounts(d: Doc, vm: VirtualMachine)
    requires Covers(d, EncodeVm(vm))
    ensures IntField(d, "uptime") && IntField(d, "cpuCores") && IntField(d, "ramGB")
    ensures IntOr(d, "uptime", 0) == vm.uptime && IntOr(d, "cpuCores", 0) == vm.cpuCores
    ensures IntOr(d, "ramGB", 0) == vm.ramGB
  {
    var e := EncodeVm(vm);
    assert e["uptime"] == Int(vm.uptime) && e["cpuCores"] == Int(vm.cpuCores) && e["ramGB"] == Int(vm.ramGB);
  }

  lemma CoveredVmCosts(d: Doc, vm: VirtualMachine)
    requires Covers(d, EncodeVm(vm))
    ensures NumField(d, "costPerHour") && NumField(d, "currentSessionCost")
    ensures NumField(d, "currentCpuUsage") && NumField(d, "currentGpuUsage") && NumField(d, "currentRamUsage")
    ensures NumOr(d, "costPerHour", 0.0) == vm.costPerHour
    ensures NumOr(d, "currentSessionCost", 0.0) == vm.currentSessionCost
    ensures NumOr(d, "currentCpuUsage", 0.0) == vm.currentCpuUsage
    ensures NumOr(d, "currentGpuUsage", 0.0) == vm.currentGpuUsage
    ensures NumOr(d, "currentRamUsage", 0.0) == vm.currentRamUsage
  {
    var e := EncodeVm(vm);
    assert e["costPerHour"] == Num(vm.costPerHour) && e["currentSessionCost"] == Num(vm.currentSessionCost);
    assert e["currentCpuUsage"] == Num(vm.currentCpuUsage) && e["currentGpuUsage"] == Num(vm.currentGpuUsage);
    assert e["currentRamUsage"] == Num(vm.currentRamUsage);
  }

  lemma CoveredVmHistories(d: Doc, vm: VirtualMachine)
    requires Covers(d, EncodeVm(vm))
    ensures NumsField(d, "cpuHistory") && NumsField(d, "gpuHistory") && NumsField(d, "ramHistory")
    ensures NumsOr(d, "cpuHistory", []) == vm.cpuHistory && NumsOr(d, "gpuHistory", []) == vm.gpuHistory
    ensures NumsOr(d, "ramHistory", []) == vm.ramHistory
  {
    var e := EncodeVm(vm);
    assert e["cpuHistory"] == Nums(vm.cpuHistory) && e["gpuHistory"] == Nums(vm.gpuHistory);
    assert e["ramHistory"] == Nums(vm.ramHistory);
  }

  lemma VmRoundTrip(vm: VirtualMachine)
    ensures DecodeVm(EncodeVm(vm)) == Some(vm)
  {
    DecodeVmCovering(EncodeVm(vm), vm);
  }

  /** An empty document converts to the default VM. */
  lemma DecodeEmptyVm()
    ensures DecodeVm(map[]) == Some(DefaultVm)
  {
  }

  // ---------------------------------------------------------------------------
  // Payout <-> document
  // ---------------------------------------------------------------------------

  function EncodePayout(p: Payout): Doc
  {
    map["id" := Str(p.id), "date" := Stamp(p.date), "amount" := Num(p.amount),
        "method" := Str(p.payMethod), "status" := Str(p.status)]
  }

  predicate PayoutConvertible(d: Doc)
  {
    StrField(d, "id") && StampField(d, "date") && NumField(d, "amount") && StrField(d, "method") && StrField(d, "status")
  }

  function DecodePayout(d: Doc): (r: Option<Payout>)
    ensures r.Some? <==> PayoutConvertible(d)
    ensures r.Some? && "status" in d ==> d["status"] == Str(r.value.status)
    ensures r.Some? && "status" !in d ==> r.value.status == DefaultPayout.status
  {
    var dp := DefaultPayout;
    if !PayoutConvertible(d) then None
    else Some(Payout(StrOr(d, "id", dp.id), StampOr(d, "date", dp.date), NumOr(d, "amount", dp.amount),
                     StrOr(d, "method", dp.payMethod), StrOr(d, "status", dp.status)))
  }

  lemma DecodePayoutCovering(d: Doc, p: Payout)
    requires Covers(d, EncodePayout(p))
    ensures DecodePayout(d) == Some(p)
  {
    var e := EncodePayout(p);
    assert "id" in e && "date" in e && "amount" in e && "method" in e && "status" in e;
  }

  lemma PayoutRoundTrip(p: Payout)
    ensures DecodePayout(EncodePayout(p)) == Some(p)
  {
    DecodePayoutCovering(EncodePayout(p), p);
  }
}

=== FILE: numbers.dfy ===
/** Small arithmetic shared by the window and the pager. */
module Numbers {

  /** The smaller of two lengths. */
  function Min(a: nat, b: nat): (r: nat)
    ensures r <= a && r <= b
    ensures r == a || r == b
  {
    if a <= b then a else b
  }
}

=== FILE: ordered_ids.dfy ===
/** The store's default order: document ids ascending in ordinal string order.
    A collection's ids are kept as a strictly increasing sequence, which is
    what a query without an explicit `OrderBy` walks through. */
module OrderedIds {
  import opened Text

  /** Strictly increasing, hence free of duplicates. */
  predicate Sorted(s: seq<string>)
  {
    forall i, j :: 0 <= i < j < |s| ==> Less(s[i], s[j])
  }

  lemma SortedTail(s: seq<string>)
    requires Sorted(s) && |s| > 0
    ensures Sorted(s[1..])
    ensures forall y :: y in s[1..] ==> Less(s[0], y)
  {
    forall y | y in s[1..]
      ensures Less(s[0], y)
    {
      var k :| 0 <= k < |s[1..]| && s[1..][k] == y;
      assert s[k + 1] == y;
    }
  }

  lemma SortedCons(h: string, t: seq<string>)
    requires Sorted(t)
    requires forall y :: y in t ==> Less(h, y)
    ensures Sorted([h] + t)
  {
    var s := [h] + t;
    forall i, j | 0 <= i < j < |s|
      ensures Less(s[i], s[j])
    {
      if i == 0 {
        assert s[j] == t[j - 1];
      } else {
        assert s[i] == t[i - 1] && s[j] == t[j - 1];
      }
    }
  }

  /** Places a new id at its position in the order. */
  function Insert(s: seq<string>, x: string): (r: seq<string>)
    requires Sorted(s) && x !in s
    ensures Sorted(r)
    ensures forall y :: y in r <==> y in s || y == x
    ensures |r| == |s| + 1
  {
    if |s| == 0 then [x]
    else if Less(x, s[0]) then
      SortedTail(s);
      forall y | y in s ensures Less(x, y) {
        if y != s[0] { LessTransitive(x, s[0], y); }
      }
      SortedCons(x, s);
      [x] + s
    else
      SortedTail(s);
      LessTotal(x, s[0]);
      var t := Insert(s[1..], x);
      SortedCons(s[0], t);
      [s[0]] + t
  }

  /** Drops an id from the order (no effect when it is absent). */
  function Remove(s: seq<string>, x: string): (r: seq<string>)
    requires Sorted(s)
    ensures Sorted(r)
    ensures forall y :: y in r <==> y in s && y != x
    ensures x !in s ==> r == s
  {
    if |s| == 0 then []
    else
      SortedTail(s);
      var t := Remove(s[1..], x);
      if s[0] == x then t
      else
        SortedCons(s[0], t);
        assert s == [s[0]] + s[1..];
        [s[0]] + t
  }

  /** The ids strictly after the cursor id `c`, in order. */
  function After(s: seq<string>, c: string): (r: seq<string>)
    requires Sorted(s)
    ensures Sorted(r)
    ensures forall y :: y in r <==> y in s && Less(c, y)
    ensures |r| <= |s|
  {
    if |s| == 0 then []
    else
      SortedTail(s);
      var t := After(s[1..], c);
      if Less(c, s[0]) then
        SortedCons(s[0], t);
        [s[0]] + t
      else t
  }

  lemma {:induction false} AfterAll(s: seq<string>, c: string)
    requires Sorted(s)
    requires forall y :: y in s ==> Less(c, y)
    ensures After(s, c) == s
    decreases |s|
  {
    if |s| > 0 {
      assert Less(c, s[0]) by { assert s[0] in s; }
      AfterUnfold(s, c);
      forall y | y in s[1..] ensures Less(c, y) {
        assert y in s;
      }
      AfterAll(s[1..], c);
      assert s == [s[0]] + s[1..];
    }
  }

  /** Resuming after an element of the order yields exactly the rest of it. */
  lemma {:induction false} AfterElement(s: seq<string>, k: int)
    requires Sorted(s) && 0 <= k < |s|
    ensures After(s, s[k]) == s[k + 1..]
    decreases |s|
  {
    AfterUnfold(s, s[k]);
    if k == 0 {
      LessIrreflexive(s[0]);
      SortedTail(s);
      AfterAll(s[1..], s[0]);
    } else {
      assert s[1..][k - 1] == s[k] && s[1..][k..] == s[k + 1..];
      assert Less(s[0], s[k]);
      AfterSkipsHead(s, s[k]);
      AfterElement(s[1..], k - 1);
    }
  }

  /** The head of the order lies before any cursor past it, so resuming after
      such a cursor never involves the head. */
  lemma AfterSkipsHead(s: seq<string>, x: string)
    requires Sorted(s) && |s| > 0 && Less(s[0], x)
    ensures After(s, x) == After(s[1..], x)
  {
    LessAsymmetric(s[0], x);
  }

  /** When the head lies after the cursor, the resumed listing starts with the
      head, and resuming after the head gives the rest of the order. */
  lemma AfterFromHead(s: seq<string>, c: string)
    requires Sorted(s) && |s| > 0 && Less(c, s[0])
    ensures After(s, c) == [s[0]] + s[1..]
    ensures After(s, s[0]) == s[1..]
  {
    SortedTail(s);
    forall y | y in s[1..] ensures Less(c, y) {
      LessTransitive(c, s[0], y);
    }
    AfterAll(s[1..], c);
    AfterElement(s, 0);
  }

  /** One step of `After`: the head is kept exactly when it lies after the
      cursor. */
  lemma AfterUnfold(s: seq<string>, c: string)
    requires Sorted(s) && |s| > 0
    ensures Sorted(s[1..])
    ensures Less(c, s[0]) ==> After(s, c) == [s[0]] + After(s[1..], c)
    ensures !Less(c, s[0]) ==> After(s, c) == After(s[1..], c)
  {
    SortedTail(s);
  }

  /** Every id the tail resumes to lies after the head. */
  lemma HeadBeforeTail(s: seq<string>, c: string, m: int)
    requires Sorted(s) && |s| > 0
    requires 0 < m <= |After(s[1..], c)|
    ensures Less(s[0], After(s[1..], c)[m - 1])
  {
    SortedTail(s);
    assert After(s[1..], c)[m - 1] in After(s[1..], c);
  }

  /** The inductive step of `AfterAfter`: when the n-th id of the listing is
      the m-th id of the tail's listing, resuming after it in the whole order
      is resuming after it in the tail. */
  lemma AfterAfterStep(s: seq<string>, c: string, n: int, m: int)
    requires Sorted(s) && |s| > 0
    requires 0 < n <= |After(s, c)| && 0 < m <= |After(s[1..], c)|
    requires After(s, c)[n - 1] == After(s[1..], c)[m - 1]
    requires After(s, c)[n..] == After(s[1..], c)[m..]
    requires After(s[1..], After(s[1..], c)[m - 1]) == After(s[1..], c)[m..]
    ensures After(s, After(s, c)[n - 1]) == After(s, c)[n..]
  {
    HeadBeforeTail(s, c, m);
    AfterSkipsHead(s, After(s[1..], c)[m - 1]);
  }

  lemma ConsIndex(h: string, t: seq<string>, n: int)
    requires 1 < n <= |t| + 1
    ensures ([h] + t)[n - 1] == t[n - 2]
    ensures ([h] + t)[n..] == t[n - 1..]
  {
  }

  /** Resuming after the n-th id of a resumed listing skips exactly n ids of it:
      this is why chained pages neither repeat nor skip a document. */
  lemma {:induction false} AfterAfter(s: seq<string>, c: string, n: int)
    requires Sorted(s)
    requires 0 < n <= |After(s, c)|
    ensures After(s, After(s, c)[n - 1]) == After(s, c)[n..]
    decreases |s|
  {
    AfterUnfold(s, c);
    var t := After(s[1..], c);
    if !Less(c, s[0]) {
      AfterAfter(s[1..], c, n);
      AfterAfterStep(s, c, n, n);
    } else if n == 1 {
      AfterFromHead(s, c);
    } else {
      ConsIndex(s[0], t, n);
      AfterAfter(s[1..], c, n - 1);
      AfterAfterStep(s, c, n, n - 1);
    }
  }
}

=== FILE: outcomes.dfy ===
/** Outcome wrappers shared by every layer of the model:
    `Option` stands for a C# nullable result, `Result` for a call that
    either returns or throws, and `Error` for the exceptions the core raises. */
module Outcomes {

  /** A nullable value: `None` is C#'s `null`. */
  datatype Option<+T> = None | Some(value: T)

  /** The exceptions the modelled code raises, in the closed set of kinds
      its callers can tell apart. */
  datatype Error =
    | NotFound(message: string)      // a fetch-or-fail service call found no entity
    | AlreadyExists(id: string)      // the store refused an auto-id insert on a taken id
    | ConversionFailed(id: string)   // a stored field had the wrong type for the entity

  /** The text a `catch (Exception ex)` block sees as `ex.Message`. */
  function Message(e: Error): string
  {
    match e
    case NotFound(m) => m
    case AlreadyExists(id) => "Document already exists: " + id
    case ConversionFailed(id) => "Unable to convert document " + id
  }

  /** A call that either returns a value or throws an `Error`. */
  datatype Result<+T> = Success(value: T) | Failure(error: Error)
}

=== FILE: payout_service.dfy ===
/** `PayoutService`: payouts kept in the document store. The payout
    repository has no id rule, so every new payout gets a generated id; the
    returned payout carries that id, while the stored document keeps the
    `id` field the payout had when it was written (empty). */
module PayoutService {
  import opened Outcomes
  import opened Repository
  import opened Models

  /** The payout repository: default collection name, generated ids. */
  const PayoutRepo: Repo<Payout> := NewRepo(None, "Payout", None, EncodePayout)

  lemma PayoutRepoRules(p: Payout)
    ensures PayoutRepo.idSelector.None?
    ensures PayoutRepo.encode(p) == EncodePayout(p)
  {
  }

  lemma EncodePayoutHasStatus(p: Payout)
    ensures "status" in EncodePayout(p) && EncodePayout(p)["status"] == Str(p.status)
  {
  }

  /** Every stored document is a readable payout carrying its status field,
      as every document this service writes is. */
  predicate WellFormed(st: Store)
  {
    Readable(st, DecodePayout, "status")
  }

  // ---------------------------------------------------------------------------
  // Reads
  // ---------------------------------------------------------------------------

  /** `GetByIdAsync`: the payout under `id`, null when absent; a document that
      does not convert makes the call fail. */
  function GetPayoutById(st: Store, id: string): (r: Result<Option<Payout>>)
    ensures r == Success(None) <==> id !in st.docs
    ensures r.Success? && r.value.Some? ==> StoredAs(st, DecodePayout, id, r.value.value)
    ensures r.Failure? <==> id in st.docs && DecodePayout(st.docs[id]).None?
    ensures r.Failure? ==> r.error == ConversionFailed(id)
  {
    GetByIdAs(st, id, DecodePayout)
  }

  /** `GetAllPayoutsAsync`: every stored payout, once each, in default order. */
  function GetAllPayouts(st: Store): (r: Result<seq<Payout>>)
    requires Valid(st)
    ensures r.Success? <==> forall id :: id in st.docs ==> DecodePayout(st.docs[id]).Some?
    ensures r.Failure? ==> r.error.ConversionFailed? && r.error.id in st.docs
    ensures WellFormed(st) ==> r.Success? && |r.value| == |st.docs|
    ensures r.Success? ==> |r.value| == |GetAll(st)| && forall i :: 0 <= i < |r.value| ==>
      StoredAs(st, DecodePayout, GetAll(st)[i].id, r.value[i])
    ensures r.Success? ==> forall i :: 0 <= i < |r.value| ==> InStore(st, DecodePayout, r.value[i])
    ensures r.Success? ==> forall id :: id in st.docs ==>
      DecodePayout(st.docs[id]).Some? && DecodePayout(st.docs[id]).value in r.value
  {
    GetAllAs(st, DecodePayout)
  }

  /** A payout the status query returns was read from a document whose
      status field is `status`, so it has that status. */
  lemma MatchedHasStatus(st: Store, status: string)
    ensures forall p :: MatchedAs(st, "status", Str(status), DecodePayout, p) ==>
      p.status == status && InStore(st, DecodePayout, p)
  {
    forall p | MatchedAs(st, "status", Str(status), DecodePayout, p)
      ensures p.status == status && InStore(st, DecodePayout, p)
    {
      var id :| id in st.docs && Matches(st.docs[id], "status", Str(status)) && StoredAs(st, DecodePayout, id, p);
    }
  }

  /** `GetPayoutsByStatusAsync`: the payouts whose stored status field equals
      `status`. */
  function GetPayoutsByStatus(st: Store, status: string): (r: Result<seq<Payout>>)
    requires Valid(st)
    ensures r.Success? <==> forall id :: id in st.docs && Matches(st.docs[id], "status", Str(status)) ==>
      DecodePayout(st.docs[id]).Some?
    ensures r.Failure? ==> r.error.ConversionFailed? && r.error.id in st.docs
    ensures WellFormed(st) ==> r.Success?
    ensures r.Success? ==> |r.value| == |Where(st, "status", Str(status))|
    ensures r.Success? ==> forall i :: 0 <= i < |r.value| ==>
      StoredAs(st, DecodePayout, Where(st, "status", Str(status))[i].id, r.value[i])
    ensures r.Success? ==> forall i :: 0 <= i < |r.value| ==>
      r.value[i].status == status && InStore(st, DecodePayout, r.value[i])
    ensures r.Success? ==> forall id, p :: StoredAs(st, DecodePayout, id, p) && "status" in st.docs[id] && p.status == status ==>
      p in r.value
  {
    MatchedHasStatus(st, status);
    WhereAs(st, "status", Str(status), DecodePayout)
  }

  /** With every document written by this service, the status query returns
      exactly the stored payouts of that status. */
  lemma StatusQueryExact(st: Store, status: string, p: Payout)
    requires Valid(st) && WellFormed(st)
    ensures GetPayoutsByStatus(st, status).Success?
    ensures p in GetPayoutsByStatus(st, status).value <==> p.status == status && InStore(st, DecodePayout, p)
  {
    WhereAsExact(st, "status", Str(status), DecodePayout, "status", p);
    MatchedHasStatus(st, status);
    if p.status == status && InStore(st, DecodePayout, p) {
      var id :| id in st.docs && StoredAs(st, DecodePayout, id, p);
      assert Matches(st.docs[id], "status", Str(status));
    }
  }

  // ---------------------------------------------------------------------------
  // Writes
  // ---------------------------------------------------------------------------

  /** `CreatePayoutAsync` at clock reading `now`, with `freshId` the id the
      store generates: a pending payout of the amount and method, stored
      under the new id and returned with `Id` set to it. */
  function CreatePayout(st: Store, amount: real, payMethod: string, now: Time, freshId: string): (r: Result<(Store, Payout)>)
    requires Valid(st)
    ensures r.Success? <==> freshId !in st.docs
    ensures r.Failure? ==> r.error == AlreadyExists(freshId)
    ensures r.Success? ==>
      var (st', p) := r.value;
      && p == Payout(freshId, now, amount, payMethod, "Pending")
      && Valid(st')
      && st'.docs.Keys == st.docs.Keys + {freshId}
      && (forall id :: id in st.docs ==> st'.docs[id] == st.docs[id])
      && GetPayoutById(st', freshId) == Success(Some(p.(id := "")))
      && (WellFormed(st) ==> WellFormed(st'))
  {
    var payout := DefaultPayout.(date := now, amount := amount, payMethod := payMethod, status := "Pending");
    PayoutRepoRules(payout);
    match Create(PayoutRepo, st, payout, freshId)
    case Failure(e) => Failure(e)
    case Success((st', generatedId)) =>
      CreatedPayoutFacts(st, payout, st', generatedId);
      Success((st', payout.(id := generatedId)))
  }

  lemma CreatedPayoutFacts(st: Store, p: Payout, st': Store, id: string)
    requires Valid(st) && Valid(st')
    requires st'.docs.Keys == st.docs.Keys + {id}
    requires st'.docs[id] == EncodePayout(p)
    requires forall other :: other in st.docs && other != id ==> st'.docs[other] == st.docs[other]
    ensures GetPayoutById(st', id) == Success(Some(p))
    ensures WellFormed(st) ==> WellFormed(st')
  {
    PayoutRoundTrip(p);
    EncodePayoutHasStatus(p);
    if WellFormed(st) {
      ReadableAfterWrite(st, st', id, DecodePayout, "status");
    }
  }

  /** `UpdatePayoutStatusAsync`: fetch-or-fail, set the status, merge the
      payout back at the same id, return it. */
  function UpdatePayoutStatus(st: Store, id: string, status: string): (r: Result<(Store, Payout)>)
    requires Valid(st)
    ensures id !in st.docs ==> r == Failure(NotFound("Payout " + id + " not found"))
    ensures r.Success? <==> id in st.docs && DecodePayout(st.docs[id]).Some?
    ensures r.Success? ==>
      var before := DecodePayout(st.docs[id]).value;
      var (st', after) := r.value;
      && after == before.(status := status)
      && Valid(st')
      && StoredAs(st', DecodePayout, id, after)
      && st'.docs.Keys == st.docs.Keys
      && (forall other :: other in st.docs && other != id ==> st'.docs[other] == st.docs[other])
      && (WellFormed(st) ==> WellFormed(st'))
  {
    match GetById(st, id)
    case None => Failure(NotFound("Payout " + id + " not found"))
    case Some(d) =>
      match DecodePayout(d)
      case None => Failure(ConversionFailed(id))
      case Some(p) =>
        var updated := p.(status := status);
        var st' := Update(PayoutRepo, st, id, updated);
        MergedPayoutFacts(st, id, updated);
        Success((st', updated))
  }

  /** Merging a payout onto its stored document leaves a document that reads
      back as that payout and keeps the store well formed. */
  lemma MergedPayoutFacts(st: Store, id: string, p: Payout)
    requires Valid(st) && id in st.docs
    ensures var st' := Update(PayoutRepo, st, id, p);
      && StoredAs(st', DecodePayout, id, p)
      && st'.docs.Keys == st.docs.Keys
      && (WellFormed(st) ==> WellFormed(st'))
  {
    var st' := Update(PayoutRepo, st, id, p);
    PayoutRepoRules(p);
    EncodePayoutHasStatus(p);
    DecodePayoutCovering(st'.docs[id], p);
    if WellFormed(st) {
      ReadableAfterWrite(st, st', id, DecodePayout, "status");
    }
  }

  /** After a status update the status query for the new status lists the
      payout, and the query for any other status does not. */
  lemma UpdatedPayoutIsListedUnderNewStatus(st: Store, id: string, status: string)
    requires Valid(st) && WellFormed(st)
    requires UpdatePayoutStatus(st, id, status).Success?
    ensures var (st', p) := UpdatePayoutStatus(st, id, status).value;
      && p in GetPayoutsByStatus(st', status).value
      && forall other :: other != status ==> p !in GetPayoutsByStatus(st', other).value
  {
    var (st', p) := UpdatePayoutStatus(st, id, status).value;
    StatusQueryExact(st', status, p);
    forall other | other != status ensures p !in GetPayoutsByStatus(st', other).value {
      StatusQueryExact(st', other, p);
    }
  }

  /** Setting the same status twice is the same as setting it once: the
      second update returns the same payout and leaves the store as the first
      one left it. */
  lemma UpdatePayoutStatusIdempotent(st: Store, id: string, status: string)
    requires Valid(st) && UpdatePayoutStatus(st, id, status).Success?
    ensures var (st', p) := UpdatePayoutStatus(st, id, status).value;
      && UpdatePayoutStatus(st', id, status).Success?
      && UpdatePayoutStatus(st', id, status).value == (st', p)
  {
    var (st', p) := UpdatePayoutStatus(st, id, status).value;
    PayoutRepoRules(p);
    UpdateCoveredIsIdentity(PayoutRepo, st', id, p);
  }
}

=== FILE: provider_service.dfy ===
/** `ProviderService`: providers held in memory, keyed by their Firebase
    uid. The clock and the generated provider id are parameters. */
module ProviderService {
  import opened Outcomes
  import opened Models

  /** The service's dictionary: Firebase uid to provider. */
  type Providers = map<string, Provider>

  /** Every provider is filed under its own Firebase uid. */
  predicate WellKeyed(m: Providers)
  {
    forall uid :: uid in m ==> m[uid].firebaseUid == uid
  }

  /** `GetByFirebaseUidAsync`: the provider filed under `uid`, or null. */
  function GetByFirebaseUid(m: Providers, uid: string): (r: Option<Provider>)
    ensures r.Some? <==> uid in m
    ensures r.Some? ==> r.value == m[uid]
  {
    if uid in m then Some(m[uid]) else None
  }

  /** `CreateProviderAsync`. `initNow` is the clock reading the property
      initialisers take (it ends up in `LastLogin`), `now` the one the object
      initialiser assigns to `CreatedAt`; `newId` is the generated GUID. The
      provider is filed under `uid`, replacing any provider already there. */
  function CreateProvider(m: Providers, name: string, email: string, uid: string,
                          newId: string, initNow: Time, now: Time): (r: (Providers, Provider))
    ensures var (m', p) := r;
      && p == Provider(newId, name, email, uid, now, initNow)
      && m'.Keys == m.Keys + {uid}
      && GetByFirebaseUid(m', uid) == Some(p)
      && (forall other :: other in m && other != uid ==> m'[other] == m[other])
      && (WellKeyed(m) ==> WellKeyed(m'))
  {
    var provider := NewProvider(initNow).(id := newId, name := name, email := email,
                                           firebaseUid := uid, createdAt := now);
    (m[uid := provider], provider)
  }

  /** `UpdateLastLoginAsync` at clock reading `now`: stamps the provider's
      last login, or fails with "Provider not found". */
  function UpdateLastLogin(m: Providers, uid: string, now: Time): (r: Result<(Providers, Provider)>)
    ensures r.Failure? <==> uid !in m
    ensures r.Failure? ==> r.error == NotFound("Provider not found")
    ensures r.Success? ==>
      var (m', p) := r.value;
      && p == m[uid].(lastLogin := now)
      && m'.Keys == m.Keys
      && GetByFirebaseUid(m', uid) == Some(p)
      && (forall other :: other in m && other != uid ==> m'[other] == m[other])
      && (WellKeyed(m) ==> WellKeyed(m'))
  {
    match GetByFirebaseUid(m, uid)
    case None => Failure(NotFound("Provider not found"))
    case Some(provider) =>
      var updated := provider.(lastLogin := now);
      Success((m[uid := updated], updated))
  }

  /** A login stamp changes nothing but the stamp: stamping twice leaves the
      provider as the last stamp says. */
  lemma UpdateLastLoginTwice(m: Providers, uid: string, t1: Time, t2: Time)
    requires uid in m
    ensures var (m1, _) := UpdateLastLogin(m, uid, t1).value;
      UpdateLastLogin(m1, uid, t2) == UpdateLastLogin(m, uid, t2)
  {
    var (m1, p1) := UpdateLastLogin(m, uid, t1).value;
    var (m2, p2) := UpdateLastLogin(m1, uid, t2).value;
    var (m3, p3) := UpdateLastLogin(m, uid, t2).value;
    assert p2 == p3;
    assert m2 == m3;
  }

  /** Neither write ever forgets a provider. */
  lemma WritesOnlyGrow(m: Providers, uid: string, name: string, email: string,
                       newId: string, initNow: Time, now: Time)
    ensures m.Keys <= CreateProvider(m, name, email, uid, newId, initNow, now).0.Keys
    ensures UpdateLastLogin(m, uid, now).Success? ==> m.Keys == UpdateLastLogin(m, uid, now).value.0.Keys
  {
  }
}

=== FILE: repository.dfy ===
/** The generic document repository (`FirestoreRepository<T>`), over an
    abstract collection: a finite map from document id to document, with
    the ids kept in the store's default order (ascending id).

    A document is a map from field name to field value, as the store holds
    it. Writes take an entity and serialise it with the repository's
    `encode`; reads hand back document snapshots, which the entity services
    convert to typed records. */
module Repository {
  import opened Outcomes
  import opened Text
  import opened OrderedIds
  import opened Numbers

  /** A field value as the store holds it. Decimals and doubles are both
      kept as exact `real`s; timestamps and durations as tick counts. */
  datatype Value =
    | Str(s: string)
    | Int(i: int)
    | Num(r: real)
    | Stamp(ticks: int)
    | Nums(xs: seq<real>)

  type Doc = map<string, Value>

  /** A document together with its id, as a query returns it. */
  datatype Snapshot = Snapshot(id: string, data: Doc)

  /** One collection: its documents and their ids in default order. */
  datatype Store = Store(docs: map<string, Doc>, order: seq<string>)

  /** The order lists every stored id exactly once, ascending. */
  predicate Valid(st: Store)
  {
    && Sorted(st.order)
    && (forall id :: id in st.docs ==> id in st.order)
    && (forall id :: id in st.order ==> id in st.docs)
  }

  /** A collection before anything has been written to it. */
  const EmptyStore := Store(map[], [])

  /** A repository instance: the collection it is bound to, the optional rule
      deriving a document id from an entity, and the entity's serialiser. */
  datatype Repo<!T> = Repo(collection: string, idSelector: Option<T -> string>, encode: T -> Doc)

  // ---------------------------------------------------------------------------
  // Construction: choosing the collection name
  // ---------------------------------------------------------------------------

  /** `GetPluralizedName`: lower-case the type name and add an "s" unless it
      already ends in one. */
  function Pluralize(className: string): (r: string)
    ensures EndsWith(r, "s") && IsLower(r)
    ensures EndsWith(ToLower(className), "s") ==> r == ToLower(className)
    ensures !EndsWith(ToLower(className), "s") ==> r == ToLower(className) + "s"
  {
    var lowerName := ToLower(className);
    ToLowerIsLower(className);
    if EndsWith(lowerName, "s") then lowerName else lowerName + "s"
  }

  lemma PluralizeIdempotent(className: string)
    ensures Pluralize(Pluralize(className)) == Pluralize(className)
  {
    var p := Pluralize(className);
    ToLowerIsLower(p);
  }

  lemma PluralizeVirtualMachine()
    ensures Pluralize("VirtualMachine") == "virtualmachines"
  {
    var n := "VirtualMachine";
    assert ToLower(n) == "virtualmachine" by {
      forall i | 0 <= i < |n| ensures ToLower(n)[i] == "virtualmachine"[i] { }
    }
  }

  lemma PluralizeProvider()
    ensures Pluralize("Provider") == "providers"
  {
    var n := "Provider";
    assert ToLower(n) == "provider" by {
      forall i | 0 <= i < |n| ensures ToLower(n)[i] == "provider"[i] { }
    }
  }

  /** A name already ending in "s" is only lower-cased. */
  lemma PluralizeStatus()
    ensures Pluralize("Status") == "status"
  {
    var n := "Status";
    assert ToLower(n) == "status" by {
      forall i | 0 <= i < |n| ensures ToLower(n)[i] == "status"[i] { }
    }
  }

  /** The constructor's choice of collection: a name that is neither null nor
      white space is used as given, otherwise the pluralised type name. */
  function CollectionName(collectionName: Option<string>, typeName: string): (r: string)
    ensures collectionName.Some? && !IsBlank(collectionName.value) ==> r == collectionName.value
    ensures IsNullOrWhiteSpace(collectionName) ==> r == Pluralize(typeName)
    ensures IsNullOrWhiteSpace(collectionName) ==> EndsWith(r, "s")
  {
    if IsNullOrWhiteSpace(collectionName) then Pluralize(typeName) else collectionName.value
  }

  function NewRepo<T>(collectionName: Option<string>, typeName: string,
                      idSelector: Option<T -> string>, encode: T -> Doc): Repo<T>
  {
    Repo(CollectionName(collectionName, typeName), idSelector, encode)
  }

  // ---------------------------------------------------------------------------
  // Primitive writes
  // ---------------------------------------------------------------------------

  /** A whole-document write (`SetAsync` without merge): the new document
      replaces whatever was stored under `id`. */
  function Put(st: Store, id: string, doc: Doc): (r: Store)
    requires Valid(st)
    ensures Valid(r)
    ensures r.docs == st.docs[id := doc]
  {
    if id in st.docs then Store(st.docs[id := doc], st.order)
    else Store(st.docs[id := doc], Insert(st.order, id))
  }

  /** Field-wise merge of `fields` onto `stored`: written fields win, the rest
      of `stored` survives. */
  function MergeFields(stored: Doc, fields: Doc): (r: Doc)
    ensures r.Keys == stored.Keys + fields.Keys
    ensures forall f :: f in fields ==> r[f] == fields[f]
    ensures forall f :: f in stored && f !in fields ==> r[f] == stored[f]
  {
    stored + fields
  }

  // ---------------------------------------------------------------------------
  // CRUD
  // ---------------------------------------------------------------------------

  /** `GetByIdAsync`: the stored document, or null when there is none. */
  function GetById(st: Store, id: string): (r: Option<Doc>)
    ensures r.Some? <==> id in st.docs
    ensures r.Some? ==> r.value == st.docs[id]
  {
    if id in st.docs then Some(st.docs[id]) else None
  }

  /** `CreateAsync`. With an id rule the entity is written whole at the
      derived id, replacing any document already there; without one the store
      inserts it under the generated id `freshId`, which it refuses if taken.
      Returns the new store and the id written. */
  function Create<T>(repo: Repo<T>, st: Store, entity: T, freshId: string): (r: Result<(Store, string)>)
    requires Valid(st)
    ensures repo.idSelector.Some? ==> r.Success? && r.value.1 == repo.idSelector.value(entity)
    ensures repo.idSelector.None? ==> (r.Success? <==> freshId !in st.docs)
    ensures repo.idSelector.None? && r.Success? ==> r.value.1 == freshId
    ensures r.Failure? ==> r.error == AlreadyExists(freshId) && freshId in st.docs
    ensures r.Success? ==>
      var (st', id) := r.value;
      && Valid(st')
      && st'.docs.Keys == st.docs.Keys + {id}
      && st'.docs[id] == repo.encode(entity)
      && (forall other :: other in st.docs && other != id ==> st'.docs[other] == st.docs[other])
  {
    match repo.idSelector
    case Some(selector) =>
      var customId := selector(entity);
      Success((Put(st, customId, repo.encode(entity)), customId))
    case None =>
      if freshId in st.docs then Failure(AlreadyExists(freshId))
      else Success((Put(st, freshId, repo.encode(entity)), freshId))
  }

  /** `UpdateAsync`: a merge write. The entity's fields replace the stored
      ones, other stored fields are kept, and a missing document is created
      rather than reported. */
  function Update<T>(repo: Repo<T>, st: Store, id: string, entity: T): (r: Store)
    requires Valid(st)
    ensures Valid(r)
    ensures r.docs.Keys == st.docs.Keys + {id}
    ensures forall f :: f in repo.encode(entity) ==> f in r.docs[id] && r.docs[id][f] == repo.encode(entity)[f]
    ensures id in st.docs ==>
      forall f :: f in st.docs[id] && f !in repo.encode(entity) ==> f in r.docs[id] && r.docs[id][f] == st.docs[id][f]
    ensures id in st.docs ==> r.docs[id].Keys == st.docs[id].Keys + repo.encode(entity).Keys
    ensures id !in st.docs ==> r.docs[id] == repo.encode(entity)
    ensures forall other :: other in st.docs && other != id ==> r.docs[other] == st.docs[other]
  {
    var stored := if id in st.docs then st.docs[id] else map[];
    Put(st, id, MergeFields(stored, repo.encode(entity)))
  }

  /** A merge write whose fields the stored document already holds, with the
      same values, changes nothing. */
  lemma UpdateCoveredIsIdentity<T>(repo: Repo<T>, st: Store, id: string, entity: T)
    requires Valid(st) && id in st.docs
    requires forall f :: f in repo.encode(entity) ==> f in st.docs[id] && st.docs[id][f] == repo.encode(entity)[f]
    ensures Update(repo, st, id, entity) == st
  {
    var merged := MergeFields(st.docs[id], repo.encode(entity));
    assert merged == st.docs[id];
    assert st.docs[id := merged] == st.docs;
  }

  /** `DeleteAsync`: removes the document; deleting a missing id is a no-op. */
  function Delete(st: Store, id: string): (r: Store)
    requires Valid(st)
    ensures Valid(r)
    ensures r.docs.Keys == st.docs.Keys - {id}
    ensures forall other :: other in r.docs ==> r.docs[other] == st.docs[other]
    ensures id !in st.docs ==> r == st
  {
    Store(st.docs - {id}, Remove(st.order, id))
  }

  lemma DeleteIdempotent(st: Store, id: string)
    requires Valid(st)
    ensures Delete(Delete(st, id), id) == Delete(st, id)
  {
  }

  // ---------------------------------------------------------------------------
  // Listings in default order
  // ---------------------------------------------------------------------------

  /** The snapshots of the given ids, in the given order. */
  function Snapshots(docs: map<string, Doc>, ids: seq<string>): (r: seq<Snapshot>)
    requires forall id :: id in ids ==> id in docs
    ensures |r| == |ids|
    ensures forall i :: 0 <= i < |ids| ==> r[i] == Snapshot(ids[i], docs[ids[i]])
  {
    seq(|ids|, i requires 0 <= i < |ids| => Snapshot(ids[i], docs[ids[i]]))
  }

  lemma SnapshotsSplit(docs: map<string, Doc>, ids: seq<string>, k: int)
    requires forall id :: id in ids ==> id in docs
    requires 0 <= k <= |ids|
    ensures Snapshots(docs, ids) == Snapshots(docs, ids[..k]) + Snapshots(docs, ids[k..])
  {
  }

  /** A listing of `st`: stored snapshots only, each id at most once, in
      default order. */
  predicate IsListing(st: Store, r: seq<Snapshot>)
  {
    && (forall i :: 0 <= i < |r| ==> r[i].id in st.docs && r[i].data == st.docs[r[i].id])
    && (forall i, j :: 0 <= i < j < |r| ==> Less(r[i].id, r[j].id))
  }

  /** `GetAllAsync`: every stored document exactly once, in default order. */
  function GetAll(st: Store): (r: seq<Snapshot>)
    requires Valid(st)
    ensures IsListing(st, r)
    ensures |r| == |st.docs|
    ensures forall id :: id in st.docs ==> exists i :: 0 <= i < |r| && r[i].id == id
  {
    var r := Snapshots(st.docs, st.order);
    forall id | id in st.docs ensures exists i :: 0 <= i < |r| && r[i].id == id {
      var i :| 0 <= i < |st.order| && st.order[i] == id;
      assert r[i].id == id;
    }
    assert |st.docs| == |st.order| by {
      OrderCoversKeys(st);
    }
    r
  }

  lemma OrderCoversKeys(st: Store)
    requires Valid(st)
    ensures |st.docs.Keys| == |st.order|
  {
    DistinctCard(st.order);
    assert st.docs.Keys == set id | id in st.order;
  }

  lemma {:induction false} DistinctCard(s: seq<string>)
    requires Sorted(s)
    ensures |set id | id in s| == |s|
    decreases |s|
  {
    if |s| > 0 {
      SortedTail(s);
      DistinctCard(s[1..]);
      LessIrreflexive(s[0]);
      assert s[0] !in s[1..];
      assert (set id | id in s) == (set id | id in s[1..]) + {s[0]};
    }
  }

  /** The ids, in order, whose snapshot satisfies `p`. */
  function SelectIds(docs: map<string, Doc>, ids: seq<string>, p: Snapshot -> bool): (r: seq<string>)
    requires forall id :: id in ids ==> id in docs
    requires Sorted(ids)
    ensures Sorted(r)
    ensures forall id :: id in r <==> id in ids && p(Snapshot(id, docs[id]))
  {
    if |ids| == 0 then []
    else
      SortedTail(ids);
      var t := SelectIds(docs, ids[1..], p);
      if p(Snapshot(ids[0], docs[ids[0]])) then
        SortedCons(ids[0], t);
        [ids[0]] + t
      else t
  }

  predicate Matches(d: Doc, fieldPath: string, value: Value)
  {
    fieldPath in d && d[fieldPath] == value
  }

  /** The initial collection satisfies the invariant every operation
      requires, lists nothing and finds no id. */
  lemma EmptyStoreValid()
    ensures Valid(EmptyStore)
    ensures GetAll(EmptyStore) == []
    ensures forall id :: GetById(EmptyStore, id) == None
  {
  }

  /** `WhereAsync`: exactly the stored documents whose named field equals the
      value (equality only; a document without the field never matches). */
  function Where(st: Store, fieldPath: string, value: Value): (r: seq<Snapshot>)
    requires Valid(st)
    ensures IsListing(st, r)
    ensures forall i :: 0 <= i < |r| ==> Matches(r[i].data, fieldPath, value)
    ensures forall id :: id in st.docs && Matches(st.docs[id], fieldPath, value) ==>
      exists i :: 0 <= i < |r| && r[i].id == id
  {
    var ids := SelectIds(st.docs, st.order, (s: Snapshot) => Matches(s.data, fieldPath, value));
    var r := Snapshots(st.docs, ids);
    forall id | id in st.docs && Matches(st.docs[id], fieldPath, value)
      ensures exists i :: 0 <= i < |r| && r[i].id == id
    {
      var i :| 0 <= i < |ids| && ids[i] == id;
      assert r[i].id == id;
    }
    r
  }

  /** `FirstOrDefaultAsync`: the query narrowed by the caller's condition `p`,
      limited to one result; null when nothing qualifies. */
  function FirstOrDefault(st: Store, p: Snapshot -> bool): (r: Option<Snapshot>)
    requires Valid(st)
    ensures r.None? <==> forall id :: id in st.docs ==> !p(Snapshot(id, st.docs[id]))
    ensures r.Some? ==>
      && r.value.id in st.docs && r.value.data == st.docs[r.value.id]
      && p(r.value)
      && forall id :: id in st.docs && Less(id, r.value.id) ==> !p(Snapshot(id, st.docs[id]))
  {
    var ids := SelectIds(st.docs, st.order, p);
    if |ids| == 0 then None
    else
      forall id | id in st.docs && Less(id, ids[0]) ensures !p(Snapshot(id, st.docs[id])) {
        if p(Snapshot(id, st.docs[id])) {
          var k :| 0 <= k < |ids| && ids[k] == id;
          if k == 0 { LessIrreflexive(id); } else { LessAsymmetric(ids[0], id); }
        }
      }
      Some(Snapshot(ids[0], st.docs[ids[0]]))
  }

  /** `ConvertTo<T>` over a query's documents: the typed records in the same
      order, or the failure for the first document that does not convert. */
  function ConvertAll<T>(snaps: seq<Snapshot>, decode: Doc -> Option<T>): (r: Result<seq<T>>)
    ensures r.Success? <==> forall i :: 0 <= i < |snaps| ==> decode(snaps[i].data).Some?
    ensures r.Success? ==> |r.value| == |snaps|
    ensures r.Success? ==> forall i :: 0 <= i < |snaps| ==> r.value[i] == decode(snaps[i].data).value
    ensures r.Failure? ==> exists i :: 0 <= i < |snaps| && r.error == ConversionFailed(snaps[i].id)
  {
    if |snaps| == 0 then Success([])
    else match decode(snaps[0].data)
      case None => Failure(ConversionFailed(snaps[0].id))
      case Some(x) =>
        match ConvertAll(snaps[1..], decode)
        case Failure(e) => Failure(e)
        case Success(rest) => Success([x] + rest)
  }

  // ---------------------------------------------------------------------------
  // Typed reads: the repository's `ConvertTo<T>` over what the store returns
  // ---------------------------------------------------------------------------

  /** The document stored under `id` converts to `x`. */
  predicate StoredAs<T(==)>(st: Store, decode: Doc -> Option<T>, id: string, x: T)
  {
    id in st.docs && decode(st.docs[id]) == Some(x)
  }

  /** Some stored document converts to `x`. */
  predicate InStore<T(==)>(st: Store, decode: Doc -> Option<T>, x: T)
  {
    exists id :: id in st.docs && StoredAs(st, decode, id, x)
  }

  /** Some stored document whose field `fieldPath` equals `value` converts to `x`. */
  predicate MatchedAs<T(==)>(st: Store, fieldPath: string, value: Value, decode: Doc -> Option<T>, x: T)
  {
    exists id :: id in st.docs && Matches(st.docs[id], fieldPath, value) && StoredAs(st, decode, id, x)
  }

  /** Every stored document converts and carries the field `key`. */
  predicate Readable<T>(st: Store, decode: Doc -> Option<T>, key: string)
  {
    forall id :: id in st.docs ==> decode(st.docs[id]).Some? && key in st.docs[id]
  }

  /** Writing one readable document (and changing nothing else) keeps the
      collection readable. */
  lemma ReadableAfterWrite<T>(st: Store, st': Store, id: string, decode: Doc -> Option<T>, key: string)
    requires Readable(st, decode, key)
    requires st'.docs.Keys == st.docs.Keys + {id}
    requires forall other :: other in st.docs && other != id ==> st'.docs[other] == st.docs[other]
    requires decode(st'.docs[id]).Some? && key in st'.docs[id]
    ensures Readable(st', decode, key)
  {
    forall other | other in st'.docs ensures decode(st'.docs[other]).Some? && key in st'.docs[other] {
      if other != id {
        assert st'.docs[other] == st.docs[other];
      }
    }
  }

  /** `GetByIdAsync` with its conversion: null when absent, the converted
      record when present, a conversion failure when the document does not
      convert. */
  function GetByIdAs<T(==)>(st: Store, id: string, decode: Doc -> Option<T>): (r: Result<Option<T>>)
    ensures r == Success(None) <==> id !in st.docs
    ensures r.Success? && r.value.Some? ==> StoredAs(st, decode, id, r.value.value)
    ensures r.Failure? <==> id in st.docs && decode(st.docs[id]).None?
    ensures r.Failure? ==> r.error == ConversionFailed(id)
  {
    match GetById(st, id)
    case None => Success(None)
    case Some(d) =>
      match decode(d)
      case None => Failure(ConversionFailed(id))
      case Some(x) => Success(Some(x))
  }

  /** Every record converted from a listing of `st` is stored in `st`. */
  lemma ConvertedAreStored<T>(st: Store, snaps: seq<Snapshot>, decode: Doc -> Option<T>, xs: seq<T>)
    requires IsListing(st, snaps)
    requires ConvertAll(snaps, decode) == Success(xs)
    ensures forall i :: 0 <= i < |xs| ==> StoredAs(st, decode, snaps[i].id, xs[i])
    ensures forall i :: 0 <= i < |xs| ==> InStore(st, decode, xs[i])
  {
    forall i | 0 <= i < |xs| ensures InStore(st, decode, xs[i]) {
      assert StoredAs(st, decode, snaps[i].id, xs[i]);
    }
  }

  /** A converted listing includes the record of every stored id it lists. */
  lemma ConvertedIncludes<T>(st: Store, snaps: seq<Snapshot>, decode: Doc -> Option<T>, xs: seq<T>, id: string)
    requires IsListing(st, snaps)
    requires ConvertAll(snaps, decode) == Success(xs)
    requires exists i :: 0 <= i < |snaps| && snaps[i].id == id
    ensures id in st.docs && decode(st.docs[id]).Some? && decode(st.docs[id]).value in xs
  {
    var i :| 0 <= i < |snaps| && snaps[i].id == id;
    assert xs[i] == decode(st.docs[id]).value;
  }

  /** `GetAllAsync` with its conversion: it succeeds exactly when every stored
      document converts, and then holds each stored record once. */
  function GetAllAs<T(==)>(st: Store, decode: Doc -> Option<T>): (r: Result<seq<T>>)
    requires Valid(st)
    ensures r.Success? <==> forall id :: id in st.docs ==> decode(st.docs[id]).Some?
    ensures r.Success? ==> |r.value| == |st.docs| == |GetAll(st)|
    ensures r.Success? ==> forall i :: 0 <= i < |r.value| ==> StoredAs(st, decode, GetAll(st)[i].id, r.value[i])
    ensures r.Success? ==> forall i :: 0 <= i < |r.value| ==> InStore(st, decode, r.value[i])
    ensures r.Success? ==> forall id :: id in st.docs ==> decode(st.docs[id]).Some? && decode(st.docs[id]).value in r.value
    ensures r.Failure? ==> r.error.ConversionFailed? && r.error.id in st.docs
  {
    var r := ConvertAll(GetAll(st), decode);
    GetAllAsFacts(st, decode, r);
    r
  }

  lemma GetAllAsFacts<T>(st: Store, decode: Doc -> Option<T>, r: Result<seq<T>>)
    requires Valid(st) && r == ConvertAll(GetAll(st), decode)
    ensures r.Success? <==> forall id :: id in st.docs ==> decode(st.docs[id]).Some?
    ensures r.Success? ==> |r.value| == |st.docs| == |GetAll(st)|
    ensures r.Success? ==> forall i :: 0 <= i < |r.value| ==> StoredAs(st, decode, GetAll(st)[i].id, r.value[i])
    ensures r.Success? ==> forall i :: 0 <= i < |r.value| ==> InStore(st, decode, r.value[i])
    ensures r.Success? ==> forall id :: id in st.docs ==> decode(st.docs[id]).Some? && decode(st.docs[id]).value in r.value
    ensures r.Failure? ==> r.error.ConversionFailed? && r.error.id in st.docs
  {
    var snaps := GetAll(st);
    if r.Success? {
      ConvertedAreStored(st, snaps, decode, r.value);
      forall id | id in st.docs ensures decode(st.docs[id]).Some? && decode(st.docs[id]).value in r.value {
        ConvertedIncludes(st, snaps, decode, r.value, id);
      }
    } else {
      var i :| 0 <= i < |snaps| && decode(snaps[i].data).None?;
      assert snaps[i].id in st.docs && decode(st.docs[snaps[i].id]).None?;
    }
  }

  /** `WhereAsync` with its conversion: when the matching documents convert,
      exactly their records, in default order. */
  function WhereAs<T(==)>(st: Store, fieldPath: string, value: Value, decode: Doc -> Option<T>): (r: Result<seq<T>>)
    requires Valid(st)
    ensures r.Success? <==> forall id :: id in st.docs && Matches(st.docs[id], fieldPath, value) ==> decode(st.docs[id]).Some?
    ensures r.Success? ==> |r.value| == |Where(st, fieldPath, value)|
    ensures r.Success? ==> forall i :: 0 <= i < |r.value| ==> StoredAs(st, decode, Where(st, fieldPath, value)[i].id, r.value[i])
    ensures r.Success? ==> forall i :: 0 <= i < |r.value| ==> MatchedAs(st, fieldPath, value, decode, r.value[i])
    ensures r.Success? ==> forall id :: id in st.docs && Matches(st.docs[id], fieldPath, value) ==>
      decode(st.docs[id]).Some? && decode(st.docs[id]).value in r.value
    ensures r.Failure? ==> r.error.ConversionFailed? && r.error.id in st.docs
  {
    var r := ConvertAll(Where(st, fieldPath, value), decode);
    WhereAsFacts(st, fieldPath, value, decode, r);
    r
  }

  lemma WhereAsFacts<T>(st: Store, fieldPath: string, value: Value, decode: Doc -> Option<T>, r: Result<seq<T>>)
    requires Valid(st) && r == ConvertAll(Where(st, fieldPath, value), decode)
    ensures r.Success? <==> forall id :: id in st.docs && Matches(st.docs[id], fieldPath, value) ==> decode(st.docs[id]).Some?
    ensures r.Success? ==> |r.value| == |Where(st, fieldPath, value)|
    ensures r.Success? ==> forall i :: 0 <= i < |r.value| ==> StoredAs(st, decode, Where(st, fieldPath, value)[i].id, r.value[i])
    ensures r.Success? ==> forall i :: 0 <= i < |r.value| ==> MatchedAs(st, fieldPath, value, decode, r.value[i])
    ensures r.Success? ==> forall id :: id in st.docs && Matches(st.docs[id], fieldPath, value) ==>
      decode(st.docs[id]).Some? && decode(st.docs[id]).value in r.value
    ensures r.Failure? ==> r.error.ConversionFailed? && r.error.id in st.docs
  {
    var snaps := Where(st, fieldPath, value);
    if r.Success? {
      ConvertedAreStored(st, snaps, decode, r.value);
      forall i | 0 <= i < |r.value| ensures MatchedAs(st, fieldPath, value, decode, r.value[i]) {
        assert Matches(st.docs[snaps[i].id], fieldPath, value);
        assert StoredAs(st, decode, snaps[i].id, r.value[i]);
      }
      forall id | id in st.docs && Matches(st.docs[id], fieldPath, value)
        ensures decode(st.docs[id]).Some? && decode(st.docs[id]).value in r.value
      {
        ConvertedIncludes(st, snaps, decode, r.value, id);
      }
    } else {
      var i :| 0 <= i < |snaps| && decode(snaps[i].data).None?;
      assert snaps[i].id in st.docs && Matches(st.docs[snaps[i].id], fieldPath, value);
    }
  }

  /** Over a collection whose documents all convert, a record is returned by
      the equality query exactly when a matching document converts to it. */
  lemma WhereAsExact<T>(st: Store, fieldPath: string, value: Value, decode: Doc -> Option<T>, key: string, x: T)
    requires Valid(st) && Readable(st, decode, key)
    ensures WhereAs(st, fieldPath, value, decode).Success?
    ensures x in WhereAs(st, fieldPath, value, decode).value <==> MatchedAs(st, fieldPath, value, decode, x)
  {
    var r := WhereAs(st, fieldPath, value, decode).value;
    if MatchedAs(st, fieldPath, value, decode, x) {
      var id :| id in st.docs && Matches(st.docs[id], fieldPath, value) && StoredAs(st, decode, id, x);
    }
    if x in r {
      var i :| 0 <= i < |r| && r[i] == x;
    }
  }

  // ---------------------------------------------------------------------------
  // Cursor pagination
  // ---------------------------------------------------------------------------

  datatype Page = Page(items: seq<Snapshot>, lastDocument: Option<Snapshot>)

  /** The ids a query resumed after `startAfter` would walk, in order. */
  function Remaining(st: Store, startAfter: Option<Snapshot>): (r: seq<string>)
    requires Valid(st)
    ensures Sorted(r)
    ensures forall id :: id in r ==> id in st.docs
    ensures forall id :: id in r <==> id in st.docs && (startAfter.Some? ==> Less(startAfter.value.id, id))
  {
    match startAfter
    case None => st.order
    case Some(c) => After(st.order, c.id)
  }

  /** The first `n` documents of a sorted run are the earliest ones: any id of
      the run left out of them comes after all of them. */
  lemma PageIsPrefix(docs: map<string, Doc>, rest: seq<string>, n: nat)
    requires Sorted(rest) && forall id :: id in rest ==> id in docs
    ensures var items := Snapshots(docs, rest[..Min(n, |rest|)]);
      forall id :: id in rest ==>
        (exists i :: 0 <= i < |items| && items[i].id == id) ||
        (|items| == n && forall i :: 0 <= i < |items| ==> Less(items[i].id, id))
  {
    var items := Snapshots(docs, rest[..Min(n, |rest|)]);
    forall id | id in rest
      ensures (exists i :: 0 <= i < |items| && items[i].id == id) ||
              (|items| == n && forall i :: 0 <= i < |items| ==> Less(items[i].id, id))
    {
      var k :| 0 <= k < |rest| && rest[k] == id;
      if k < |items| {
        assert items[k].id == id;
      } else {
        assert |items| == n;
        forall i | 0 <= i < |items| ensures Less(items[i].id, id) {
          assert items[i].id == rest[i];
        }
      }
    }
  }

  /** `GetPagedAsync`: at most `pageSize` documents strictly after the cursor,
      the earliest ones in default order, and the last of them as the next
      cursor (null exactly when the page is empty). */
  function GetPaged(st: Store, pageSize: nat, startAfter: Option<Snapshot>): (r: Page)
    requires Valid(st)
    ensures IsListing(st, r.items)
    ensures |r.items| <= pageSize
    ensures startAfter.Some? ==> forall i :: 0 <= i < |r.items| ==> Less(startAfter.value.id, r.items[i].id)
    ensures r.lastDocument.None? <==> |r.items| == 0
    ensures r.lastDocument.Some? ==> r.lastDocument.value == r.items[|r.items| - 1]
    ensures forall id :: id in Remaining(st, startAfter) ==>
      (exists i :: 0 <= i < |r.items| && r.items[i].id == id) ||
      (|r.items| == pageSize && forall i :: 0 <= i < |r.items| ==> Less(r.items[i].id, id))
  {
    var rest := Remaining(st, startAfter);
    var ids := rest[..Min(pageSize, |rest|)];
    var items := Snapshots(st.docs, ids);
    PageIsPrefix(st.docs, rest, pageSize);
    Page(items, if |items| == 0 then None else Some(items[|items| - 1]))
  }

  /** Resuming after the n-th remaining document leaves exactly the ones
      past it. */
  lemma ResumeAfterFullPage(st: Store, startAfter: Option<Snapshot>, n: nat)
    requires Valid(st)
    requires 0 < n <= |Remaining(st, startAfter)|
    ensures var rest := Remaining(st, startAfter);
      Remaining(st, Some(Snapshot(rest[n - 1], st.docs[rest[n - 1]]))) == rest[n..]
  {
    if startAfter.None? {
      AfterElement(st.order, n - 1);
    } else {
      AfterAfter(st.order, startAfter.value.id, n);
    }
  }

  /** With a page size of 0 every page is empty yet counts as full, and its
      null cursor sends the next request back to the start: a caller's loop
      that stops at the first short page repeats the same request forever. */
  lemma ZeroPageSizeNeverAdvances(st: Store, startAfter: Option<Snapshot>)
    requires Valid(st)
    ensures var page := GetPaged(st, 0, startAfter);
      && page == Page([], None)
      && GetPaged(st, 0, page.lastDocument) == page
  {
  }

  /** A caller's loop over pages: fetch a page, pass its last document as the
      next cursor, stop at the first page shorter than `pageSize`. Without
      writes in between it visits exactly the documents after the starting
      cursor, each once, in default order. */
  function ReadPages(st: Store, pageSize: nat, startAfter: Option<Snapshot>): (r: seq<Snapshot>)
    requires Valid(st) && pageSize > 0
    ensures r == Snapshots(st.docs, Remaining(st, startAfter))
    decreases |Remaining(st, startAfter)|
  {
    var rest := Remaining(st, startAfter);
    var page := GetPaged(st, pageSize, startAfter);
    if |page.items| < pageSize then
      page.items
    else
      var next := page.lastDocument;
      assert next == Some(Snapshot(rest[pageSize - 1], st.docs[rest[pageSize - 1]]));
      ResumeAfterFullPage(st, startAfter, pageSize);
      SnapshotsSplit(st.docs, rest, pageSize);
      page.items + ReadPages(st, pageSize, next)
  }

  /** Paging from the start, each time passing the previous page's last
      document, lists the whole collection exactly as `GetAll` does. */
  lemma PagingVisitsEveryDocumentOnce(st: Store, pageSize: nat)
    requires Valid(st) && pageSize > 0
    ensures ReadPages(st, pageSize, None) == GetAll(st)
    ensures |ReadPages(st, pageSize, None)| == |st.docs|
  {
  }
}

=== FILE: text.dfy ===
/** The few .NET string primitives the core relies on: `char.IsWhiteSpace`,
    `string.IsNullOrWhiteSpace`, `ToLowerInvariant`, `EndsWith`, and the
    ordinal comparison by which the document store orders its ids. */
module Text {
  import opened Outcomes

  /** `char.IsWhiteSpace`: the Unicode space separators plus the
      line/paragraph separators and the C0/C1 controls .NET counts as white. */
  predicate IsWhiteSpace(c: char)
  {
    || ('\U{9}' <= c <= '\U{D}')
    || c == '\U{20}' || c == '\U{85}' || c == '\U{A0}' || c == '\U{1680}'
    || ('\U{2000}' <= c <= '\U{200A}')
    || c == '\U{2028}' || c == '\U{2029}' || c == '\U{202F}' || c == '\U{205F}'
    || c == '\U{3000}'
  }

  /** `string.IsNullOrWhiteSpace` for a string that is not null. */
  predicate IsBlank(s: string)
  {
    forall i :: 0 <= i < |s| ==> IsWhiteSpace(s[i])
  }

  /** `string.IsNullOrWhiteSpace` for a nullable string. */
  predicate IsNullOrWhiteSpace(s: Option<string>)
  {
    s.None? || IsBlank(s.value)
  }

  function ToLowerChar(c: char): (r: char)
    ensures 'A' <= c <= 'Z' ==> 'a' <= r <= 'z'
    ensures !('A' <= c <= 'Z') ==> r == c
  {
    if 'A' <= c <= 'Z' then (c as int + 32) as char else c
  }

  /** `ToLowerInvariant`, restricted to the ASCII letters. */
  function ToLower(s: string): (r: string)
    ensures |r| == |s|
    ensures forall i :: 0 <= i < |s| ==> r[i] == ToLowerChar(s[i])
  {
    seq(|s|, i requires 0 <= i < |s| => ToLowerChar(s[i]))
  }

  predicate IsLower(s: string)
  {
    forall i :: 0 <= i < |s| ==> !('A' <= s[i] <= 'Z')
  }

  lemma ToLowerIsLower(s: string)
    ensures IsLower(ToLower(s))
    ensures IsLower(s) ==> ToLower(s) == s
  {
  }

  predicate EndsWith(s: string, suffix: string)
  {
    |suffix| <= |s| && s[|s| - |suffix|..] == suffix
  }

  // ---------------------------------------------------------------------------
  // Ordinal order on strings (lexicographic on character codes).
  // ---------------------------------------------------------------------------

  /** `a` sorts strictly before `b`: a proper prefix, or smaller at the first
      character where they differ. */
  predicate Less(a: string, b: string)
    decreases |a|
  {
    if |a| == 0 then |b| > 0
    else if |b| == 0 then false
    else if a[0] < b[0] then true
    else a[0] == b[0] && Less(a[1..], b[1..])
  }

  lemma {:induction false} LessIrreflexive(a: string)
    ensures !Less(a, a)
    decreases |a|
  {
    if |a| > 0 {
      LessIrreflexive(a[1..]);
    }
  }

  lemma {:induction false} LessTransitive(a: string, b: string, c: string)
    requires Less(a, b) && Less(b, c)
    ensures Less(a, c)
    decreases |a|
  {
    if |a| > 0 && a[0] == b[0] && b[0] == c[0] {
      LessTransitive(a[1..], b[1..], c[1..]);
    }
  }

  lemma {:induction false} LessTotal(a: string, b: string)
    requires a != b
    ensures Less(a, b) || Less(b, a)
    decreases |a|
  {
    if |a| > 0 && |b| > 0 && a[0] == b[0] {
      assert a == [a[0]] + a[1..] && b == [b[0]] + b[1..];
      LessTotal(a[1..], b[1..]);
    }
  }

  lemma LessAsymmetric(a: string, b: string)
    requires Less(a, b)
    ensures !Less(b, a)
  {
    if Less(b, a) {
      LessTransitive(a, b, a);
      LessIrreflexive(a);
    }
  }
}

=== FILE: vm_service.dfy ===
/** `VirtualMachineService`: virtual machines kept in the document store,
    keyed by their `VmId` through the repository's id rule. */
module VirtualMachineService {
  import opened Outcomes
  import opened Text
  import opened Repository
  import opened Models
  import MetricWindow

  /** The VM repository: default collection name, documents keyed by `VmId`. */
  const VmRepo: Repo<VirtualMachine> :=
    NewRepo(None, "VirtualMachine", Some((vm: VirtualMachine) => vm.vmId), EncodeVm)

  /** The VM repository derives a document id from `VmId` and stores the VM's
      field table. */
  lemma VmRepoRules(vm: VirtualMachine)
    ensures VmRepo.idSelector.Some? && VmRepo.idSelector.value(vm) == vm.vmId
    ensures VmRepo.encode(vm) == EncodeVm(vm)
  {
  }

  lemma EncodeVmHasStatus(vm: VirtualMachine)
    ensures "status" in EncodeVm(vm)
  {
  }

  /** Every stored document is a readable VM carrying its status field, as
      every document this service writes is. */
  predicate WellFormed(st: Store)
  {
    Readable(st, DecodeVm, "status")
  }

  /** A fresh `VirtualMachine` starts with empty histories, so the window
      invariant holds from construction, and with a blank id, so creating it
      always assigns a generated one. */
  lemma DefaultVmStartsWithinWindow()
    ensures WindowsOk(DefaultVm)
    ensures IsBlank(DefaultVm.vmId)
    ensures DefaultVm.client == "Unknown" && DefaultVm.status == "Stopped"
  {
  }

  // ---------------------------------------------------------------------------
  // Reads
  // ---------------------------------------------------------------------------

  /** `GetByIdAsync`: the VM under `vmId`, null when absent; a document that
      does not convert makes the call fail. */
  function GetVmById(st: Store, vmId: string): (r: Result<Option<VirtualMachine>>)
    ensures r == Success(None) <==> vmId !in st.docs
    ensures r.Success? && r.value.Some? ==> StoredAs(st, DecodeVm, vmId, r.value.value)
    ensures r.Failure? <==> vmId in st.docs && DecodeVm(st.docs[vmId]).None?
    ensures r.Failure? ==> r.error == ConversionFailed(vmId)
  {
    GetByIdAs(st, vmId, DecodeVm)
  }

  /** `GetAllVmsAsync`: every stored VM, once each, in default order. */
  function GetAllVms(st: Store): (r: Result<seq<VirtualMachine>>)
    requires Valid(st)
    ensures r.Success? <==> forall id :: id in st.docs ==> DecodeVm(st.docs[id]).Some?
    ensures r.Failure? ==> r.error.ConversionFailed? && r.error.id in st.docs
    ensures WellFormed(st) ==> r.Success? && |r.value| == |st.docs|
    ensures r.Success? ==> |r.value| == |GetAll(st)| && forall i :: 0 <= i < |r.value| ==>
      StoredAs(st, DecodeVm, GetAll(st)[i].id, r.value[i])
    ensures r.Success? ==> forall i :: 0 <= i < |r.value| ==> InStore(st, DecodeVm, r.value[i])
    ensures r.Success? ==> forall id :: id in st.docs ==> DecodeVm(st.docs[id]).Some? && DecodeVm(st.docs[id]).value in r.value
  {
    GetAllAs(st, DecodeVm)
  }

  /** A VM the status query returns was read from a document whose status
      field is `status`, so it has that status. */
  lemma MatchedHasStatus(st: Store, status: string)
    ensures forall vm :: MatchedAs(st, "status", Str(status), DecodeVm, vm) ==>
      vm.status == status && InStore(st, DecodeVm, vm)
  {
    forall vm | MatchedAs(st, "status", Str(status), DecodeVm, vm)
      ensures vm.status == status && InStore(st, DecodeVm, vm)
    {
      var id :| id in st.docs && Matches(st.docs[id], "status", Str(status)) && StoredAs(st, DecodeVm, id, vm);
    }
  }

  /** `GetVmsByStatusAsync`: the VMs whose stored status field equals
      `status`. A document lacking the field never matches, though it would
      read back with the default status "Stopped". */
  function GetVmsByStatus(st: Store, status: string): (r: Result<seq<VirtualMachine>>)
    requires Valid(st)
    ensures r.Success? <==> forall id :: id in st.docs && Matches(st.docs[id], "status", Str(status)) ==>
      DecodeVm(st.docs[id]).Some?
    ensures r.Failure? ==> r.error.ConversionFailed? && r.error.id in st.docs
    ensures WellFormed(st) ==> r.Success?
    ensures r.Success? ==> |r.value| == |Where(st, "status", Str(status))|
    ensures r.Success? ==> forall i :: 0 <= i < |r.value| ==>
      StoredAs(st, DecodeVm, Where(st, "status", Str(status))[i].id, r.value[i])
    ensures r.Success? ==> forall i :: 0 <= i < |r.value| ==>
      r.value[i].status == status && InStore(st, DecodeVm, r.value[i])
    ensures r.Success? ==> forall id, vm :: StoredAs(st, DecodeVm, id, vm) && "status" in st.docs[id] && vm.status == status ==>
      vm in r.value
  {
    MatchedHasStatus(st, status);
    WhereAs(st, "status", Str(status), DecodeVm)
  }

  /** With every document written by this service, the status query returns
      exactly the stored VMs of that status. */
  lemma StatusQueryExact(st: Store, status: string, vm: VirtualMachine)
    requires Valid(st) && WellFormed(st)
    ensures GetVmsByStatus(st, status).Success?
    ensures vm in GetVmsByStatus(st, status).value <==>
      vm.status == status && InStore(st, DecodeVm, vm)
  {
    WhereAsExact(st, "status", Str(status), DecodeVm, "status", vm);
    MatchedHasStatus(st, status);
    if vm.status == status && InStore(st, DecodeVm, vm) {
      var id :| id in st.docs && StoredAs(st, DecodeVm, id, vm);
      assert Matches(st.docs[id], "status", Str(status));
    }
  }

  // ---------------------------------------------------------------------------
  // Writes
  // ---------------------------------------------------------------------------

  /** `CreateVmAsync`: a null, empty or white-space `VmId` is replaced by the
      generated id `generatedId`; the VM is then written whole at its id
      (replacing any VM already there) and returned. */
  function CreateVm(st: Store, vm: VirtualMachine, generatedId: string): (r: Result<(Store, VirtualMachine)>)
    requires Valid(st)
    requires !IsBlank(generatedId)
    ensures r.Success?
    ensures IsBlank(vm.vmId) ==> r.value.1.vmId == generatedId
    ensures !IsBlank(vm.vmId) ==> r.value.1.vmId == vm.vmId
    ensures !IsBlank(r.value.1.vmId)
    ensures r.value.1.(vmId := vm.vmId) == vm
    ensures Valid(r.value.0)
    ensures GetVmById(r.value.0, r.value.1.vmId) == Success(Some(r.value.1))
    ensures r.value.0.docs.Keys == st.docs.Keys + {r.value.1.vmId}
    ensures forall id :: id in st.docs && id != r.value.1.vmId ==> r.value.0.docs[id] == st.docs[id]
    ensures WellFormed(st) ==> WellFormed(r.value.0)
  {
    var toStore := if IsBlank(vm.vmId) then vm.(vmId := generatedId) else vm;
    var created := Create(VmRepo, st, toStore, generatedId);
    VmRepoRules(toStore);
    CreatedVmFacts(st, toStore, created);
    Success((created.value.0, toStore))
  }

  lemma CreatedVmFacts(st: Store, vm: VirtualMachine, created: Result<(Store, string)>)
    requires Valid(st) && created.Success? && created.value.1 == vm.vmId
    requires Valid(created.value.0)
    requires created.value.0.docs.Keys == st.docs.Keys + {vm.vmId}
    requires created.value.0.docs[vm.vmId] == EncodeVm(vm)
    requires forall other :: other in st.docs && other != vm.vmId ==> created.value.0.docs[other] == st.docs[other]
    ensures GetVmById(created.value.0, vm.vmId) == Success(Some(vm))
    ensures WellFormed(st) ==> WellFormed(created.value.0)
  {
    var st' := created.value.0;
    VmRoundTrip(vm);
    EncodeVmHasStatus(vm);
    if WellFormed(st) {
      ReadableAfterWrite(st, st', vm.vmId, DecodeVm, "status");
    }
  }

  /** One metrics sample: the three gauges set to the readings and each
      history advanced through the sliding window. */
  function RecordSample(vm: VirtualMachine, cpu: real, gpu: real, ram: real): (r: VirtualMachine)
    ensures r.currentCpuUsage == cpu && r.currentGpuUsage == gpu && r.currentRamUsage == ram
    ensures r.cpuHistory == MetricWindow.Push(vm.cpuHistory, cpu)
    ensures r.gpuHistory == MetricWindow.Push(vm.gpuHistory, gpu)
    ensures r.ramHistory == MetricWindow.Push(vm.ramHistory, ram)
    ensures r.(currentCpuUsage := vm.currentCpuUsage, currentGpuUsage := vm.currentGpuUsage,
               currentRamUsage := vm.currentRamUsage, cpuHistory := vm.cpuHistory,
               gpuHistory := vm.gpuHistory, ramHistory := vm.ramHistory) == vm
  {
    vm.(currentCpuUsage := cpu, currentGpuUsage := gpu, currentRamUsage := ram,
        cpuHistory := MetricWindow.Push(vm.cpuHistory, cpu),
        gpuHistory := MetricWindow.Push(vm.gpuHistory, gpu),
        ramHistory := MetricWindow.Push(vm.ramHistory, ram))
  }

  lemma RecordSampleKeepsWindows(vm: VirtualMachine, cpu: real, gpu: real, ram: real)
    requires WindowsOk(vm)
    ensures WindowsOk(RecordSample(vm, cpu, gpu, ram))
  {
    MetricWindow.PushWithinCapacity(vm.cpuHistory, cpu);
  }

  /** `UpdateVmMetricsAsync`: fetch-or-fail, record the sample, merge the VM
      back at the same id, return it. */
  function UpdateVmMetrics(st: Store, vmId: string, cpu: real, gpu: real, ram: real): (r: Result<(Store, VirtualMachine)>)
    requires Valid(st)
    ensures vmId !in st.docs ==> r == Failure(NotFound("VM " + vmId + " not found"))
    ensures r.Success? <==> vmId in st.docs && DecodeVm(st.docs[vmId]).Some?
    ensures r.Success? ==>
      var before := DecodeVm(st.docs[vmId]).value;
      var (st', after) := r.value;
      && after == RecordSample(before, cpu, gpu, ram)
      && Valid(st')
      && StoredAs(st', DecodeVm, vmId, after)
      && st'.docs.Keys == st.docs.Keys
      && (forall id :: id in st.docs && id != vmId ==> st'.docs[id] == st.docs[id])
      && (WellFormed(st) ==> WellFormed(st'))
  {
    match GetById(st, vmId)
    case None => Failure(NotFound("VM " + vmId + " not found"))
    case Some(d) =>
      match DecodeVm(d)
      case None => Failure(ConversionFailed(vmId))
      case Some(vm) =>
        var updated := RecordSample(vm, cpu, gpu, ram);
        var st' := Update(VmRepo, st, vmId, updated);
        VmRepoRules(updated);
        MergedVmFacts(st, st', vmId, updated);
        Success((st', updated))
  }

  /** Merging a VM onto its stored document leaves a document that reads back
      as that VM and keeps the store well formed. */
  lemma MergedVmFacts(st: Store, st': Store, vmId: string, vm: VirtualMachine)
    requires Valid(st) && vmId in st.docs
    requires st'.docs.Keys == st.docs.Keys + {vmId}
    requires forall f :: f in EncodeVm(vm) ==> f in st'.docs[vmId] && st'.docs[vmId][f] == EncodeVm(vm)[f]
    requires forall other :: other in st.docs && other != vmId ==> st'.docs[other] == st.docs[other]
    ensures StoredAs(st', DecodeVm, vmId, vm)
    ensures st'.docs.Keys == st.docs.Keys
    ensures WellFormed(st) ==> WellFormed(st')
  {
    MergedVmReadsBack(st, st', vmId, vm);
    if WellFormed(st) {
      ReadableAfterWrite(st, st', vmId, DecodeVm, "status");
    }
  }

  lemma MergedVmReadsBack(st: Store, st': Store, vmId: string, vm: VirtualMachine)
    requires vmId in st'.docs
    requires forall f :: f in EncodeVm(vm) ==> f in st'.docs[vmId] && st'.docs[vmId][f] == EncodeVm(vm)[f]
    ensures StoredAs(st', DecodeVm, vmId, vm) && "status" in st'.docs[vmId]
  {
    EncodeVmHasStatus(vm);
    DecodeVmCovering(st'.docs[vmId], vm);
  }

  /** A metrics update touches only the gauges and histories: name, client,
      status, id, uptime, specs and costs of the stored VM are unchanged, the
      gauges are the readings, and each history ends with its new sample. */
  lemma UpdateVmMetricsFrame(st: Store, vmId: string, cpu: real, gpu: real, ram: real)
    requires Valid(st) && vmId in st.docs && DecodeVm(st.docs[vmId]).Some?
    ensures UpdateVmMetrics(st, vmId, cpu, gpu, ram).Success?
    ensures var before := DecodeVm(st.docs[vmId]).value;
      var after := UpdateVmMetrics(st, vmId, cpu, gpu, ram).value.1;
      && after.vmId == before.vmId && after.name == before.name && after.client == before.client
      && after.status == before.status && after.uptime == before.uptime
      && after.cpuCores == before.cpuCores && after.ramGB == before.ramGB
      && after.costPerHour == before.costPerHour && after.currentSessionCost == before.currentSessionCost
      && after.currentCpuUsage == cpu && after.currentGpuUsage == gpu && after.currentRamUsage == ram
      && after.cpuHistory[|after.cpuHistory| - 1] == cpu
      && after.gpuHistory[|after.gpuHistory| - 1] == gpu
      && after.ramHistory[|after.ramHistory| - 1] == ram
      && (WindowsOk(before) ==> WindowsOk(after))
  {
    var before := DecodeVm(st.docs[vmId]).value;
    if WindowsOk(before) {
      RecordSampleKeepsWindows(before, cpu, gpu, ram);
    }
  }

  /** `DeleteVmAsync`: removes the VM if present; a missing id is a no-op. */
  function DeleteVm(st: Store, vmId: string): (r: Store)
    requires Valid(st)
    ensures Valid(r)
    ensures GetVmById(r, vmId) == Success(None)
    ensures r.docs.Keys == st.docs.Keys - {vmId}
    ensures forall id :: id in r.docs ==> r.docs[id] == st.docs[id]
    ensures vmId !in st.docs ==> r == st
    ensures WellFormed(st) ==> WellFormed(r)
  {
    Delete(st, vmId)
  }
}

=== FILE: vm_simulator.dfy ===
/** `VmService`: an in-memory list of three demonstration VMs whose live
    gauges drift on every fetch. Only running VMs move; each moved gauge is
    kept within 0..100 and its new value is appended to the matching
    history through the sliding window.

    The random draws are a parameter: one `Delta` per VM of the list, of
    which only the running VMs' are used. */
module VmService {
  import opened Models
  import MetricWindow
  import Numbers

  /** The three draws for one VM: `Next(-10, 10)` twice and `Next(-5, 5)`,
      each upper bound exclusive. */
  datatype Delta = Delta(cpu: int, gpu: int, ram: int)

  /** The values the random source can produce for one VM. */
  predicate InRange(d: Delta)
  {
    && -10 <= d.cpu < 10
    && -10 <= d.gpu < 10
    && -5 <= d.ram < 5
  }

  /** `Math.Clamp(x, lo, hi)`. */
  function Clamp(x: real, lo: real, hi: real): (r: real)
    requires lo <= hi
    ensures lo <= r <= hi
    ensures lo <= x <= hi ==> r == x
    ensures x < lo ==> r == lo
    ensures hi < x ==> r == hi
  {
    if x < lo then lo else if hi < x then hi else x
  }

  /** Clamping never moves a value further from a point of the range. */
  lemma ClampNonExpansive(x: real, y: real, lo: real, hi: real)
    requires lo <= hi && lo <= y <= hi
    ensures x <= y ==> x <= Clamp(x, lo, hi) <= y
    ensures y <= x ==> y <= Clamp(x, lo, hi) <= x
  {
  }

  /** All three live gauges read a percentage. */
  predicate GaugesInRange(vm: VirtualMachine)
  {
    && 0.0 <= vm.currentCpuUsage <= 100.0
    && 0.0 <= vm.currentGpuUsage <= 100.0
    && 0.0 <= vm.currentRamUsage <= 100.0
  }

  predicate IsRunning(vm: VirtualMachine)
  {
    vm.status == "Running"
  }

  /** The VM with everything but its gauges and histories. */
  function Fixed(vm: VirtualMachine): VirtualMachine
  {
    vm.(currentCpuUsage := 0.0, currentGpuUsage := 0.0, currentRamUsage := 0.0,
        cpuHistory := [], gpuHistory := [], ramHistory := [])
  }

  /** One fetch's effect on one VM: a running VM's gauges move by the draws,
      clamped to 0..100 (a sum below 0 reads 0, one above 100 reads 100), and each new gauge value is pushed onto its history;
      any other VM is left as it is. */
  function Refresh(vm: VirtualMachine, d: Delta): (r: VirtualMachine)
    ensures Fixed(r) == Fixed(vm)
    ensures !IsRunning(vm) ==> r == vm
    ensures IsRunning(vm) ==> GaugesInRange(r)
    ensures IsRunning(vm) ==>
      && r.cpuHistory == MetricWindow.Push(vm.cpuHistory, r.currentCpuUsage)
      && r.gpuHistory == MetricWindow.Push(vm.gpuHistory, r.currentGpuUsage)
      && r.ramHistory == MetricWindow.Push(vm.ramHistory, r.currentRamUsage)
    ensures IsRunning(vm) && 0.0 <= vm.currentCpuUsage + d.cpu as real <= 100.0 ==>
      r.currentCpuUsage == vm.currentCpuUsage + d.cpu as real
    ensures IsRunning(vm) && 0.0 <= vm.currentGpuUsage + d.gpu as real <= 100.0 ==>
      r.currentGpuUsage == vm.currentGpuUsage + d.gpu as real
    ensures IsRunning(vm) && 0.0 <= vm.currentRamUsage + d.ram as real <= 100.0 ==>
      r.currentRamUsage == vm.currentRamUsage + d.ram as real
    ensures IsRunning(vm) && vm.currentCpuUsage + d.cpu as real < 0.0 ==> r.currentCpuUsage == 0.0
    ensures IsRunning(vm) && vm.currentCpuUsage + d.cpu as real > 100.0 ==> r.currentCpuUsage == 100.0
    ensures IsRunning(vm) && vm.currentGpuUsage + d.gpu as real < 0.0 ==> r.currentGpuUsage == 0.0
    ensures IsRunning(vm) && vm.currentGpuUsage + d.gpu as real > 100.0 ==> r.currentGpuUsage == 100.0
    ensures IsRunning(vm) && vm.currentRamUsage + d.ram as real < 0.0 ==> r.currentRamUsage == 0.0
    ensures IsRunning(vm) && vm.currentRamUsage + d.ram as real > 100.0 ==> r.currentRamUsage == 100.0
  {
    if !IsRunning(vm) then vm
    else
      var cpu := Clamp(vm.currentCpuUsage + d.cpu as real, 0.0, 100.0);
      var gpu := Clamp(vm.currentGpuUsage + d.gpu as real, 0.0, 100.0);
      var ram := Clamp(vm.currentRamUsage + d.ram as real, 0.0, 100.0);
      vm.(currentCpuUsage := cpu, currentGpuUsage := gpu, currentRamUsage := ram,
          cpuHistory := MetricWindow.Push(vm.cpuHistory, cpu),
          gpuHistory := MetricWindow.Push(vm.gpuHistory, gpu),
          ramHistory := MetricWindow.Push(vm.ramHistory, ram))
  }

  /** With draws from the random source and gauges already in range, a gauge
      moves by at most its draw's magnitude: CPU and GPU by less than 11
      points, RAM by at most 5. */
  lemma RefreshMovesLittle(vm: VirtualMachine, d: Delta)
    requires InRange(d) && GaugesInRange(vm)
    ensures var r := Refresh(vm, d);
      && -10.0 <= r.currentCpuUsage - vm.currentCpuUsage <= 9.0
      && -10.0 <= r.currentGpuUsage - vm.currentGpuUsage <= 9.0
      && -5.0 <= r.currentRamUsage - vm.currentRamUsage <= 4.0
  {
    ClampNonExpansive(vm.currentCpuUsage + d.cpu as real, vm.currentCpuUsage, 0.0, 100.0);
    ClampNonExpansive(vm.currentGpuUsage + d.gpu as real, vm.currentGpuUsage, 0.0, 100.0);
    ClampNonExpansive(vm.currentRamUsage + d.ram as real, vm.currentRamUsage, 0.0, 100.0);
  }

  /** The state every VM of the list keeps between fetches: gauges in range
      and histories within the window, in lockstep. */
  predicate Healthy(vm: VirtualMachine)
  {
    GaugesInRange(vm) && WindowsOk(vm)
  }

  lemma RefreshKeepsHealthy(vm: VirtualMachine, d: Delta)
    requires Healthy(vm)
    ensures Healthy(Refresh(vm, d))
  {
    if IsRunning(vm) {
      var r := Refresh(vm, d);
      MetricWindow.PushWithinCapacity(vm.cpuHistory, r.currentCpuUsage);
      MetricWindow.PushLockstep(vm.cpuHistory, r.currentCpuUsage, vm.gpuHistory, r.currentGpuUsage);
      MetricWindow.PushLockstep(vm.cpuHistory, r.currentCpuUsage, vm.ramHistory, r.currentRamUsage);
    }
  }

  /** A demonstration VM as the constructor's object initialiser builds it:
      the unset properties keep their defaults. */
  function DemoVm(vmId: string, name: string, status: string, cpuCores: int, ramGB: int,
                  costPerHour: real, currentSessionCost: real,
                  cpu: real, gpu: real, ram: real): (r: VirtualMachine)
    ensures r.client == DefaultVm.client && r.uptime == DefaultVm.uptime
    ensures r.cpuHistory == [] && r.gpuHistory == [] && r.ramHistory == []
  {
    DefaultVm.(vmId := vmId, name := name, status := status, cpuCores := cpuCores, ramGB := ramGB,
               costPerHour := costPerHour, currentSessionCost := currentSessionCost,
               currentCpuUsage := cpu, currentGpuUsage := gpu, currentRamUsage := ram)
  }

  /** The constructor's list. */
  function Seed(): seq<VirtualMachine>
  {
    [ DemoVm("1", "Deep Learning Rig", "Running", 8, 16, 0.35, 1.20, 45.0, 88.0, 60.0),
      DemoVm("2", "Web Server", "Running", 2, 4, 0.05, 0.15, 12.0, 0.0, 35.0),
      DemoVm("3", "Render Node", "Stopped", 12, 32, 0.50, 0.00, 0.0, 0.0, 0.0) ]
  }

  /** The list starts healthy, with distinct ids, two running VMs and one
      stopped one, and empty histories. */
  lemma SeedFacts()
    ensures |Seed()| == 3
    ensures forall i :: 0 <= i < |Seed()| ==> Healthy(Seed()[i]) && Seed()[i].cpuHistory == []
    ensures forall i, j :: 0 <= i < j < |Seed()| ==> Seed()[i].vmId != Seed()[j].vmId
    ensures IsRunning(Seed()[0]) && IsRunning(Seed()[1]) && !IsRunning(Seed()[2])
  {
  }

  /** `GetMyVmsAsync`: refreshes every running VM of the list, in list order,
      and returns the whole list. */
  method GetMyVms(vms: seq<VirtualMachine>, deltas: seq<Delta>) returns (r: seq<VirtualMachine>)
    requires |deltas| == |vms|
    ensures |r| == |vms|
    ensures forall i :: 0 <= i < |vms| ==> Fixed(r[i]) == Fixed(vms[i])
    ensures forall i :: 0 <= i < |vms| && !IsRunning(vms[i]) ==> r[i] == vms[i]
    ensures forall i :: 0 <= i < |vms| && IsRunning(vms[i]) ==>
      GaugesInRange(r[i]) && r[i].cpuHistory == MetricWindow.Push(vms[i].cpuHistory, r[i].currentCpuUsage)
    ensures forall i :: 0 <= i < |vms| ==> r[i] == Refresh(vms[i], deltas[i])
  {
    r := [];
    var i := 0;
    while i < |vms|
      invariant 0 <= i <= |vms|
      invariant |r| == i
      invariant forall k :: 0 <= k < i ==> r[k] == Refresh(vms[k], deltas[k])
    {
      r := r + [Refresh(vms[i], deltas[i])];
      i := i + 1;
    }
  }

  /** One fetch over the whole list, as a function. */
  function Step(vms: seq<VirtualMachine>, deltas: seq<Delta>): (r: seq<VirtualMachine>)
    requires |deltas| == |vms|
    ensures |r| == |vms|
    ensures forall i :: 0 <= i < |vms| ==> r[i] == Refresh(vms[i], deltas[i])
  {
    seq(|vms|, i requires 0 <= i < |vms| => Refresh(vms[i], deltas[i]))
  }

  /** Successive fetches: the list after refreshing it with each round of
      draws in turn. */
  function Fetches(vms: seq<VirtualMachine>, rounds: seq<seq<Delta>>): (r: seq<VirtualMachine>)
    requires forall n :: 0 <= n < |rounds| ==> |rounds[n]| == |vms|
    ensures |r| == |vms|
    decreases |rounds|
  {
    if |rounds| == 0 then vms
    else Fetches(Step(vms, rounds[0]), rounds[1..])
  }

  /** However many fetches happen, every VM of the list stays healthy and
      keeps its identity, specs and costs, and a stopped VM never changes. */
  lemma {:induction false} FetchesKeepInvariant(vms: seq<VirtualMachine>, rounds: seq<seq<Delta>>)
    requires forall n :: 0 <= n < |rounds| ==> |rounds[n]| == |vms|
    requires forall i :: 0 <= i < |vms| ==> Healthy(vms[i])
    ensures forall i :: 0 <= i < |vms| ==> Healthy(Fetches(vms, rounds)[i])
    ensures forall i :: 0 <= i < |vms| ==> Fixed(Fetches(vms, rounds)[i]) == Fixed(vms[i])
    ensures forall i :: 0 <= i < |vms| && !IsRunning(vms[i]) ==> Fetches(vms, rounds)[i] == vms[i]
    decreases |rounds|
  {
    if |rounds| > 0 {
      var next := Step(vms, rounds[0]);
      forall i | 0 <= i < |vms| ensures Healthy(next[i]) {
        RefreshKeepsHealthy(vms[i], rounds[0][i]);
      }
      FetchesKeepInvariant(next, rounds[1..]);
    }
  }

  lemma RefreshGrowsWindow(vm: VirtualMachine, d: Delta)
    requires IsRunning(vm) && |vm.cpuHistory| <= MetricWindow.Capacity
    ensures IsRunning(Refresh(vm, d))
    ensures |Refresh(vm, d).cpuHistory| == Numbers.Min(|vm.cpuHistory| + 1, MetricWindow.Capacity)
  {
    MetricWindow.PushWithinCapacity(vm.cpuHistory, Refresh(vm, d).currentCpuUsage);
  }

  /** The first of several fetches, unfolded: the list it leaves, on which
      the remaining rounds run, with VM `i` still running and one sample
      further into its window. */
  lemma FirstFetch(vms: seq<VirtualMachine>, rounds: seq<seq<Delta>>, i: int) returns (next: seq<VirtualMachine>)
    requires |rounds| > 0 && forall n :: 0 <= n < |rounds| ==> |rounds[n]| == |vms|
    requires 0 <= i < |vms| && IsRunning(vms[i]) && |vms[i].cpuHistory| <= MetricWindow.Capacity
    ensures |next| == |vms|
    ensures forall n :: 0 <= n < |rounds[1..]| ==> |rounds[1..][n]| == |next|
    ensures Fetches(vms, rounds) == Fetches(next, rounds[1..])
    ensures IsRunning(next[i])
    ensures |next[i].cpuHistory| == Numbers.Min(|vms[i].cpuHistory| + 1, MetricWindow.Capacity)
  {
    next := Step(vms, rounds[0]);
    RefreshGrowsWindow(vms[i], rounds[0][i]);
  }

  /** Filling a bounded window one slot ahead of the rest. */
  lemma MinShift(h: nat, k: nat, cap: nat)
    requires h <= cap
    ensures Numbers.Min(Numbers.Min(h + 1, cap) + k, cap) == Numbers.Min(h + k + 1, cap)
  {
  }

  /** A running VM's history, starting empty, holds the gauge values of the
      last (at most 20) fetches: after k fetches it has min(k, 20) samples. */
  lemma {:induction false} FetchesFillWindow(vms: seq<VirtualMachine>, rounds: seq<seq<Delta>>, i: int)
    requires forall n :: 0 <= n < |rounds| ==> |rounds[n]| == |vms|
    requires 0 <= i < |vms| && IsRunning(vms[i]) && |vms[i].cpuHistory| <= MetricWindow.Capacity
    ensures |Fetches(vms, rounds)[i].cpuHistory| == Numbers.Min(|vms[i].cpuHistory| + |rounds|, MetricWindow.Capacity)
    decreases |rounds|
  {
    if |rounds| > 0 {
      var next := FirstFetch(vms, rounds, i);
      FetchesFillWindow(next, rounds[1..], i);
      MinShift(|vms[i].cpuHistory|, |rounds| - 1, MetricWindow.Capacity);
    }
  }
}
